=== FILE: README.md ===
# rdflib-jsonld serializer: the RDF-to-JSON-LD compaction, in Dafny

This project models the part of the rdflib-jsonld serializer that turns an RDF
graph into a JSON-LD tree (`from_rdf` and its helpers in
`rdflib_jsonld/serializer.py`). It also proves what that tree looks like.

The model covers:

- which subjects become top-level nodes;
- how the statements of a subject are grouped into one node object;
- how each property's key and shape are chosen: single value or array,
  bare identifier, typed or language-tagged literal, or a list under a
  list-container term;
- how RDF lists (`rdf:first` / `rdf:rest` chains) are recognised and unfolded;
- how a store's graphs become graph objects, are merged, and are collapsed
  into the final document.

Layout, one module per layer of the program:

| file | module | models |
|---|---|---|
| `wrappers.dfy` | `Wrappers` | `Option` |
| `seqs.dfy` | `Seqs` | sequences used as ordered sets (`set(...)` in the source) |
| `json.dfy` | `Json` | the output tree (objects, arrays, strings) and its Python truthiness |
| `context.dfy` | `Ctx` | the JSON-LD context as the serializer uses it: keys, `shrink`, `find_term`, default language |
| `rdf.dfy` | `Rdf` | terms, triples, and the graph queries the serializer makes |
| `collection.dfy` | `Collection` | `_to_collection` and the `rdf:first`/`rdf:rest` walk of `graph.items` |
| `render.dfy` | `Render` | `_to_raw_value` |
| `property.dfy` | `Property` | `_handles_for_property` and `_key_and_node` |
| `node.dfy` | `Node` | `_from_graph` and `_subject_to_node` |
| `document.dfy` | `Document` | `from_rdf`: auto-compact context, graphs of the store, graph objects, collapse |
| `scenarios.dfy` | `Scenarios` | worked examples on concrete graphs |

Modelling choices:

- A graph is a sequence of triples. A query such as `graph.value` returns the
  first matching triple in that order.
  An rdflib graph is a set, so `Document.DocumentOk` requires that no graph
  of the store lists a triple twice (`Document.TriplesOnce`).
- The context is a record. Its `shrink` and `find_term` fields are arbitrary
  functions, so every property holds for every context.
- Python truthiness is explicit for the values the code tests:
  - A missing or empty string is false (`Ctx.NonEmpty`).
  - An empty JSON object, array or string is false (`Json.JTruthy`).
  - An RDF term is false when it is an empty IRI, an empty blank-node label
    or an empty literal without datatype (`Rdf.Truthy`).
  - A typed literal's truthiness follows the Python value rdflib converts it
    to. That conversion is not modelled: `Rdf.TypedValueTruthy` is a fixed
    but arbitrary predicate, so no property depends on it.
  - One test, at line 133, is not followed exactly; see "Left out".
- A blank node is written `_:label` where the source calls `n3()`
  (`_subject_to_node`, `_to_raw_value`). Under an `@id`-typed term or
  `rdf:type` it is written as its bare label, because `iri_to_id` returns
  the term itself.
- The source raises an exception in some cases. Those cases are excluded by
  named preconditions:
  - `Render.Nested` excludes Python's recursion limit, including a list that
    contains itself. The `depth` parameter it bounds provably does not change
    the result.
  - `Property.ModeOk` excludes reading `datatype` from a non-literal.
  - `Property.ValueOk` excludes unwrapping a value that is not a
    `{list_key: ...}` object under a list-container term.
  - `Document.DocumentOk` excludes indexing an empty output.
- Every operation from `Property.Handles` up to `Document.FromRdf` takes a
  `Property.Reading`. `AsWritten` keeps the two defects listed under
  Findings. `Corrected` repairs exactly those
  two defects: the shared datatype (`Property.SharedDatatype`) and the graph
  object (`Document.GraphObject`). Everything else is the same definition
  under both readings.
- Some behaviours of the code that may be unexpected:
  - A node with `rdf:first` and no `rdf:rest` is a one-element list, because
    the walk ends quietly at the missing rest
    (`Scenarios.MissingRestIsShortList`). It is not an ordinary node.
  - A node with several `rdf:first` values is not rejected. The first one
    is taken.
  - `rdf:type` without a term is an array whenever there is no context,
    even for a single object.

## Model

| member | source | states |
|---|---|---|
| Rdf.Subjects | rdflib_jsonld/serializer.py:141 | the subjects of the graph, each once: no duplicates, and a term is listed exactly when some triple has it as subject |
| Rdf.PredicatesOf | rdflib_jsonld/serializer.py:161-165 | the predicates grouped for subject `s`, each once: a predicate is listed exactly when some triple `(s, p, _)` exists |
| Rdf.ObjectsOf | rdflib_jsonld/serializer.py:162-164 | the objects collected for `(s, p)`: an object is listed exactly when `(s, p, o)` is in the graph, and the list is non-empty exactly when `s` has a `p` triple. In a graph that lists each triple once, each object is listed once |
| Collection.CollectionItems | rdflib_jsonld/serializer.py:254-264 | `rdf:nil` is the empty list. A term that is neither nil nor the subject of an `rdf:first` triple is no list. A list head is a list exactly when its rest chain revisits no node, and its items are then the elements met along the chain, which stops quietly at a false node |
| Collection.ListRoundTrip | rdflib_jsonld/serializer.py:254-260 | for distinct, true, non-nil nodes `ns` and elements `es`, the triples of the list `ns`/`es` are recognised from `ns[0]` as a list whose items are exactly `es`, in order. This holds after any triples whose subject is neither a list node nor `rdf:nil` |
| Collection.SelfLoopIsNoList | rdflib_jsonld/serializer.py:257-262 | a true head whose rest is itself is not a list: the error of the walk is caught and turned into "no list" |
| Collection.TwoCycleIsNoList | rdflib_jsonld/serializer.py:257-262 | a true head on a two-node rest cycle of true nodes is not a list either |
| Render.LiteralValue | rdflib_jsonld/serializer.py:236-251 | the literal's lexical form is always recoverable. The value is a bare string exactly when there is a context, no foreign language tag and no datatype. A foreign language gives exactly `{lang_key, value_key}` carrying the tag. Otherwise a datatype gives exactly `{type_key, value_key}` carrying the shrunk datatype. Otherwise the value is `{value_key}` alone |
| Render.Reference | rdflib_jsonld/serializer.py:229-251 | a blank node becomes `{id_key: "_:" + label}`, an IRI `{id_key: shrink(iri)}`, and a literal a value that keeps its lexical form |
| Render.RawValue | rdflib_jsonld/serializer.py:225-235 | a term that is no list renders as its reference or literal value. A list renders as an object whose only key is `list_key`, holding an array with one entry per list item |
| Render.RawValues | rdflib_jsonld/serializer.py:259-260 | the list elements are rendered one for one, in list order |
| Render.ListElementsInOrder | rdflib_jsonld/serializer.py:226-228 | entry `i` of a rendered list is the rendering of the list's `i`-th item, one nesting level down |
| Render.DepthIrrelevant | rdflib_jsonld/serializer.py:225-228 | the recursion bound decides only whether rendering crashes: any two bounds that admit a term give the same value |
| Render.NestedMonotone | rdflib_jsonld/serializer.py:225-228 | a term that renders within nesting depth `d` renders within every larger depth |
| Render.CyclicListFallsBack | rdflib_jsonld/serializer.py:229-235 | a list head whose rest chain revisits a node falls back to a node reference: `_:label` for a blank node, the shrunk IRI for an IRI |
| Render.NilIsEmptyList | rdflib_jsonld/serializer.py:255-256 | `rdf:nil` renders as `{list_key: []}` |
| Render.DefaultLanguageIsBare | rdflib_jsonld/serializer.py:238-251 | under a context, a literal tagged with the context's own language renders bare, and one tagged with another language as `{lang_key: tag, value_key: lexical}` |
| Property.ScanDatatype | rdflib_jsonld/serializer.py:189-192 | the corrected scan, comparing datatypes with datatypes: the candidate datatype survives exactly when every remaining object is a literal with that datatype |
| Property.SharedDatatype | rdflib_jsonld/serializer.py:187-194 | a datatype is reported only if every object is a literal with it. Whenever all objects share a datatype, that datatype is reported |
| Property.SharedDatatypeAsWritten | rdflib_jsonld/serializer.py:187-194 | as written, a datatype is reported exactly when the objects are a single literal, and it is `unicode` of that literal's datatype. Any second object resets it, because line 190 compares a URIRef or None with a unicode string, which rdflib's term equality never finds equal. For a single typed literal this agrees with the corrected datatype |
| Property.DatatypeDiscrepancy | rdflib_jsonld/serializer.py:188-191 | as written, one plain literal reports the datatype `"None"`, and two literals of one same datatype report none. The corrected version reports none for the first and the shared datatype for the second |
| Property.TermMode | rdflib_jsonld/serializer.py:203-209 | a term without a type renders raw values, a term typed `@id` bare identifiers, and any other type passes matching literals through bare |
| Property.Handles | rdflib_jsonld/serializer.py:182-222 | the term is looked up with the datatype of the chosen reading. With a term: the term's name is the key; a set container always gives an array, any other container gives an array exactly when there is not exactly one object; the renderer follows the term's type; the list unwrap is applied exactly under a list container. Without a term: `rdf:type` is keyed by `type_key` with bare identifiers, any other property by its shrunk IRI with raw values; the result is an array exactly when there is no context or not exactly one object; nothing is unwrapped |
| Property.BareIdValue | rdflib_jsonld/serializer.py:184-185 | always a string: the shrunk IRI, the bare blank-node label, or the literal's lexical form |
| Property.ModeValue | rdflib_jsonld/serializer.py:203-213 | bare identifiers are strings. A literal whose `unicode(datatype)` is the term's type passes through as its lexical form. Everything else renders as `_to_raw_value` does |
| Property.RenderValue | rdflib_jsonld/serializer.py:218-220 | under a list container the value is the `list_key` entry of the rendered object. Otherwise it is the rendered value itself |
| Property.RenderAll | rdflib_jsonld/serializer.py:178 | one rendered value per object, in object order |
| Property.KeyAndNode | rdflib_jsonld/serializer.py:172-179 | the key is the chosen key. A single value is the first object's rendering. An array has exactly one entry per object, entry `i` being object `i`'s rendering |
| Property.TypeValuesAreBare | rdflib_jsonld/serializer.py:210-215 | without a term, `rdf:type` is keyed by `type_key` and each IRI value is its bare shrunk string, in array or single form |
| Property.IdTermValuesAreBare | rdflib_jsonld/serializer.py:203-205 | under a term typed `@id`, the term's name is the key and each IRI object is emitted as its bare shrunk string, in array or single form |
| Property.TypedTermPassesLiteral | rdflib_jsonld/serializer.py:206-209 | under a term with a type other than `@id`, the term's name is the key and a literal of exactly that datatype is emitted as its bare lexical form, in array or single form |
| Property.ListTermUnwraps | rdflib_jsonld/serializer.py:218-220 | under an untyped list-container term, a property whose one object is a list has the bare array of the list's rendered elements as its value, with no `list_key` wrapper |
| Node.KeepTopLevel | rdflib_jsonld/serializer.py:144-148 | keeps exactly the IRIs and the blank nodes without a true `rdf:first` object, and keeps a duplicate-free sequence duplicate-free |
| Node.TopLevelSubjects | rdflib_jsonld/serializer.py:141-148 | the subjects given a top-level node, each once. A term is one exactly when it is a subject and either an IRI or a blank node without a true `rdf:first` object |
| Node.IdEntry | rdflib_jsonld/serializer.py:157-160 | an IRI subject is identified by its shrunk IRI. A blank node is identified by `_:label` exactly when it is the object of a triple whose subject is true. Nothing else gets an identifier |
| Node.PutAll | rdflib_jsonld/serializer.py:165-167 | setting the entries in turn gives the union of the keys. Each key no later entry reuses holds its entry's value, and untouched keys keep their value |
| Node.SubjectToNode | rdflib_jsonld/serializer.py:155-169 | the node's keys are its identifier key, if any, plus the key of every predicate. Unless a property is keyed like the identifier, `id_key` is present exactly for IRIs and for blank nodes referred to by a true subject, and holds the identifier |
| Node.OneKeyPerPredicate | rdflib_jsonld/serializer.py:161-167 | when the predicates' keys are distinct and differ from `id_key`, the node has exactly one key per predicate plus its identifier, and each predicate's key holds that predicate's rendered value |
| Node.FromGraph | rdflib_jsonld/serializer.py:138-152 | one node object per top-level subject, each built by `_subject_to_node` |
| Document.AutoContext | rdflib_jsonld/serializer.py:84-88 | the derived context maps exactly the non-empty prefixes not bound to the XML namespace. When a prefix is bound more than once, the last such binding wins |
| Document.ContextData | rdflib_jsonld/serializer.py:84-88 | given context data that is truthy, or auto-compact off, is kept. Otherwise the context is derived from the store's prefixes |
| Document.Union | rdflib_jsonld/serializer.py:104 | `+=` on graphs: the result holds the triples of both graphs, keeps the first graph as a prefix, and adds no duplicates |
| Document.DefaultGraph | rdflib_jsonld/serializer.py:97-104 | the default graph holds exactly the triples of the contexts whose identifier is not an IRI, without duplicates |
| Document.NamedParts | rdflib_jsonld/serializer.py:100-102 | each context with an IRI identifier becomes its own named graph, and only those |
| Document.Partition | rdflib_jsonld/serializer.py:97-106 | a plain store is its one graph. A context-aware store is the unnamed default graph followed by its IRI-named contexts |
| Document.GraphName | rdflib_jsonld/serializer.py:113-116 | a graph has a name exactly when its identifier is an IRI, and the name is that IRI shrunk |
| Document.BaseObject | rdflib_jsonld/serializer.py:112-118 | the graph object starts with at most its shrunk name under `id_key` and the context data under `@context`, and is empty for an unnamed graph without context data |
| Document.GraphObjectAsWritten | rdflib_jsonld/serializer.py:119-125 | as written: a graph is skipped exactly in the expanded form with no nodes. An unnamed graph with one node gets that node merged into its object. Otherwise the expanded form lists the nodes under `graph_key`, while under a context the graph gets only its identifier and context, without its nodes |
| Document.GraphObjectsAgree | rdflib_jsonld/serializer.py:119-125 | the code as written and the corrected graph object are the same object in the expanded form, for a flattened graph and for a graph without nodes; they differ only under a context for other graphs |
| Document.AsWrittenDocumentDropsNodes | rdflib_jsonld/serializer.py:119-135 | as written, under a context, a plain store whose unnamed graph has several top-level nodes serializes as its bare graph object: the context data and no node |
| Document.AsWrittenDropsNodes | rdflib_jsonld/serializer.py:120-125 | as written, under a context, an unnamed graph with two nodes yields a graph object that does not keep the first node: neither all of its entries nor the node under `graph_key` |
| Document.GraphObject | rdflib_jsonld/serializer.py:119-125 | corrected: a graph is skipped exactly in the expanded form with no nodes, and every node of the graph is kept, merged in or listed under `graph_key` |
| Document.Place | rdflib_jsonld/serializer.py:126-129 | a graph object bearing the first object's name is merged into it, leaving the rest untouched. Any other graph object is appended. Either way the new object's entries all reach the result, and no earlier object loses a key |
| Document.Assemble | rdflib_jsonld/serializer.py:110-129 | under either reading: at most one object per graph, and no object at all exactly when every graph is skipped |
| Document.Collapse | rdflib_jsonld/serializer.py:130-135 | one object under a context, or one graph in all, collapses to that object, or to its graph array when that is its only, truthy key. Otherwise the result is the array of all objects |
| Document.FromRdf | rdflib_jsonld/serializer.py:79-135 | under either reading, in the expanded form, a store with several graphs serializes as an array |
| Document.SingleNodeDocument | rdflib_jsonld/serializer.py:119-134 | a plain store with an unnamed graph and one top-level node serializes as that node merged with the context data, or as the graph array when that is all the object holds |
| Document.ExpandedNodesArray | rdflib_jsonld/serializer.py:122-134 | in the expanded form, a plain unnamed graph with several top-level nodes serializes as the bare array of its nodes |
| Document.PlainStoreKeepsNodes | rdflib_jsonld/serializer.py:119-134 | nothing is lost with the corrected graph object: every node of a plain store's graph is found in the document, merged into its one object, listed under its graph key, or in the bare node array. This assumes no property is keyed like the graph keyword, and that keyword differs from the identifier and context keywords |
| Scenarios.ListUnderPlainProperty | rdflib_jsonld/serializer.py:225-228 | under a context and either reading, the list `( "x" "y" )` as the one object of a property without a term renders as `{list_key: ["x", "y"]}` |
| Scenarios.ListUnderListTerm | rdflib_jsonld/serializer.py:218-220 | under a list-container term the same list renders as the bare array `["x", "y"]` |
| Scenarios.MissingRestIsShortList | rdflib_jsonld/serializer.py:257-260 | a node with `rdf:first "x"` and no `rdf:rest` is the one-element list `["x"]` |
| Scenarios.FalsyElementHeadIsNode | rdflib_jsonld/serializer.py:144-160 | for the list `( "" )` referred to by a true subject, the head is a list with the false literal as its item. It also gets its own top-level node, identified as `_:a`, because line 145 tests the truthiness of the `rdf:first` objects |
| Scenarios.FalsyRestEndsList | rdflib_jsonld/serializer.py:257-260 | a rest pointing at the empty IRI, which is false, ends the walk quietly: the list is `["x"]` |
| Scenarios.TwoObjectsMakeArray | rdflib_jsonld/serializer.py:215 | a property without a term and with two objects is an array of two values, with or without a context, under either reading |
| Scenarios.OneLiteralDocument | rdflib_jsonld/serializer.py:120-121 | one IRI subject with one plain literal serializes as the single object `{id_key: shrink(s), name: "v"}`. This holds under a context whose lookup for the property is a plain term, with datatype `"None"` as written and no datatype when corrected |
| Scenarios.EnglishLiteralEntry | rdflib_jsonld/serializer.py:211-240 | in the expanded form, a property with no term keeps its compact IRI and is always an array (lines 211-215). A literal tagged `@en`, when the context language differs, is written as `{lang_key: "en", value_key: v}` (lines 238-240) |
| Scenarios.EnglishLiteralDocument | rdflib_jsonld/serializer.py:7-29 | the example in the module's documentation: in the expanded form, one IRI subject with one literal tagged `@en` serializes as `{id_key: shrink(s), shrink(p): [{lang_key: "en", value_key: v}]}`. This holds for the code as written and for the corrected reading |
| Scenarios.TwoKeyNodeDocument | rdflib_jsonld/serializer.py:120-134 | a plain store whose unnamed graph has one top-level node with at least two keys serializes as exactly that node's object, with no context data. The collapse at line 133 cannot fire because the object has more than one key |

## Left out

- `serialize` (lines 57-76) is not modelled: the encoding check and warning, `json.dumps` with sorted keys and indentation, and the write to the stream are output formatting and I/O.
- The `Context` class is not part of this model. Building it from context data or a base IRI (lines 90-94), `to_dict`, `shrink` and `find_term` are abstract fields of `Ctx.Context`. The caller supplies the context and the data to embed, which `Document.ContextData` derives for the auto-compact case.
- `context.get_key(ID)` (line 126) is taken to be `id_key`.
- rdflib's graph API is not part of this model. `subjects`, `predicate_objects`, `value` and `items` are functions over a sequence of triples, and `value` returns the first match in sequence order, where rdflib's order depends on the store.
- Python `set` and `dict` iteration order (lines 141, 162-165) is replaced by graph order. Where two predicates of a subject share a key, the later one in that order wins (`Node.PutAll`).
- Rdf.TypedValueTruthy: rdflib's conversion of a typed literal to a Python value (integers, booleans, decimals, dates and so on) is not part of this model. The truthiness of a typed literal at lines 145, 159 and in the walk of `graph.items` is therefore an arbitrary fixed predicate, and no property depends on it.
- Document.Collapse: the truthiness test of line 133 is made on the JSON value. A value that is a bare literal passed through under a typed term is a JSON string here, whereas Python tests the rdflib `Literal`, whose truthiness follows its value. So when such a literal typed `0` is the only entry under `graph_key`, the model unwraps it where the source keeps the object.
- The options `use_native_types`, `startnode` and `index` (lines 79-82) are accepted by the source but never used, so they are not modelled.
- The exceptions the source can raise (`RuntimeError` for exceeding the maximum recursion depth in list rendering (Python 2), `AttributeError` at line 208, `KeyError`/`TypeError` at line 220, `IndexError` at line 131) are excluded by the preconditions `Render.Nested`, `Property.ModeOk`, `Property.ValueOk` and `Document.DocumentOk` rather than modelled as error results.
- Document.FromRdf: its own contract states only the array case of the expanded form. The one-graph shapes are stated by `Document.SingleNodeDocument`, `Document.ExpandedNodesArray` and `Document.Collapse`.
- Document.Assemble: its contract states the number of graph objects. Their contents are stated by `Document.GraphObject` and `Document.Place`.

## Findings

| source | as written | input that shows it | evidently intended | confidence | as-written member | corrected member |
|---|---|---|---|---|---|---|
| rdflib_jsonld/serializer.py:188-191 | `datatype = unicode(objs[0].datatype)` turns a missing datatype into the string `"None"`, and line 190 then compares each later object's datatype, a URIRef, with that unicode string. A single plain literal looks up terms for datatype `"None"`. Several literals never keep a datatype, because rdflib's term equality is false between a URIRef and a plain string | a property with one plain literal `"v"`; a property with two literals typed `xsd:integer` | no datatype when the first literal has none; the shared datatype whenever all objects are literals of one datatype | medium (the second input rests on rdflib 4's type-strict `Identifier.__eq__`), not executed | Property.SharedDatatypeAsWritten (shown by Property.DatatypeDiscrepancy) | Property.SharedDatatype |
| rdflib_jsonld/serializer.py:120-125 | the nodes go under `graph_key` only in the expanded form (`elif use_expanded`). With a context, a named graph or a graph with more than one node loses all its nodes | a context and a default graph with two IRI subjects, each with one property | every node kept: under `graph_key` whenever the nodes are not flattened into the graph object | high, not executed | Document.GraphObjectAsWritten (shown by Document.AsWrittenDropsNodes; end to end: Document.AsWrittenDocumentDropsNodes) | Document.GraphObject (end to end: Document.PlainStoreKeepsNodes) |

=== FILE: collection.dfy ===
/**
 * RDF lists: the `rdf:first`/`rdf:rest` walk behind `graph.items` and the
 * list detection of `_to_collection` (rdflib_jsonld/serializer.py:254-264).
 */
module Collection {
  import opened Wrappers
  import opened Seqs
  import opened Rdf

  /** The elements met by a walk, and whether it ended without revisiting a node. */
  datatype Walked = Walked(items: seq<Term>, ok: bool)

  /** Visiting an unseen node `x` of `u` shrinks the unvisited part of `u`. */
  lemma MeasureShrinks(u: set<Term>, seen: set<Term>, x: Term)
    requires x in u && x !in seen
    ensures |u - (seen + {x})| < |u - seen|
  {
    assert u - (seen + {x}) == (u - seen) - {x};
  }

  /**
   * Walk an RDF list from node `n`, with `seen` the nodes already visited.
   * The walk stops quietly at a false node (`while list`). Each node contributes its `rdf:first` object when it has one; the walk
   * follows `rdf:rest` and ends at a node without a rest, which `rdf:nil`
   * ordinarily is. It fails (the `ValueError` of `graph.items`) when the rest
   * is a node already seen.
   */
  function Walk(g: Graph, n: Term, seen: set<Term>): (w: Walked)
    decreases |Objects(g) - seen|
  {
    if !Truthy(n) then Walked([], true)
    else
    var here := match Value(g, n, FIRST) case Some(e) => [e] case None => [];
    match Value(g, n, REST)
    case None => Walked(here, true)
    case Some(next) =>
      if next in seen then Walked(here, false)
      else
        assert Triple(n, REST, next) in g;
        MeasureShrinks(Objects(g), seen, next);
        var rest := Walk(g, next, seen + {next});
        Walked(here + rest.items, rest.ok)
  }

  /** `o` is a list head `_to_collection` walks: not `rdf:nil`, and the subject of an `rdf:first` triple. */
  predicate IsListHead(g: Graph, o: Term) {
    o != NIL && HasFirst(g, o)
  }

  /**
   * `_to_collection` without the element rendering: the element terms of the
   * list `o` is, or None when `o` is not a list or its walk fails.
   */
  function CollectionItems(g: Graph, o: Term): (r: Option<seq<Term>>)
    ensures o == NIL ==> r == Some([])
    ensures !IsListHead(g, o) && o != NIL ==> r.None?
    ensures IsListHead(g, o) ==> (r.Some? <==> Walk(g, o, {o}).ok)
    ensures r.Some? && o != NIL ==> r.value == Walk(g, o, {o}).items
  {
    if o == NIL then Some([])
    else if HasFirst(g, o) then
      var w := Walk(g, o, {o});
      if w.ok then Some(w.items) else None
    else None
  }

  /** The triples of a well-formed RDF list whose nodes are `ns` and elements `es`. */
  function ListTriples(ns: seq<Term>, es: seq<Term>): Graph
    requires |ns| == |es|
  {
    if |ns| == 0 then []
    else
      [Triple(ns[0], FIRST, es[0]), Triple(ns[0], REST, if |ns| > 1 then ns[1] else NIL)]
      + ListTriples(ns[1..], es[1..])
  }

  /** Every subject of `ListTriples(ns, es)` is one of the nodes `ns`. */
  lemma {:induction false} ListTriplesSubjects(ns: seq<Term>, es: seq<Term>, t: Triple)
    requires |ns| == |es|
    requires t in ListTriples(ns, es)
    ensures t.s in ns
  {
    if |ns| > 0 {
      var tail := ListTriples(ns[1..], es[1..]);
      if t !in tail {
      } else {
        ListTriplesSubjects(ns[1..], es[1..], t);
      }
    }
  }

  /** In a well-formed list, node `ns[k]` has `es[k]` as first and the next node (or nil) as rest. */
  lemma {:induction false} ListLinks(ns: seq<Term>, es: seq<Term>, k: nat)
    requires |ns| == |es| && NoDup(ns) && k < |ns|
    ensures Value(ListTriples(ns, es), ns[k], FIRST) == Some(es[k])
    ensures Value(ListTriples(ns, es), ns[k], REST) == Some(if k + 1 < |ns| then ns[k + 1] else NIL)
  {
    var g := ListTriples(ns, es);
    var head := g[..2];
    var tail := ListTriples(ns[1..], es[1..]);
    assert g == head + tail;
    if k == 0 {
      assert head[1..] == [head[1]];
      assert Value(head, ns[0], FIRST) == Some(es[0]);
      ValueOfPrefix(head, tail, ns[0], FIRST);
      assert Value(head, ns[0], REST) == Some(if 1 < |ns| then ns[1] else NIL) by {
        assert FIRST != REST;
      }
      ValueOfPrefix(head, tail, ns[0], REST);
    } else {
      assert ns[k] != ns[0];
      assert !HasTriple(head, ns[k], FIRST) && !HasTriple(head, ns[k], REST);
      ValueSkipsPrefix(head, tail, ns[k], FIRST);
      ValueSkipsPrefix(head, tail, ns[k], REST);
      assert NoDup(ns[1..]) by {
        forall i, j | 0 <= i < j < |ns[1..]| ensures ns[1..][i] != ns[1..][j] {
          assert ns[1..][i] == ns[i + 1] && ns[1..][j] == ns[j + 1];
        }
      }
      ListLinks(ns[1..], es[1..], k - 1);
      assert ns[1..][k - 1] == ns[k];
    }
  }

  /** Every node of `ns` is true in Python, so that the walk does not stop at it. */
  predicate AllTruthy(ns: seq<Term>) {
    forall n :: n in ns ==> Truthy(n)
  }

  /** No triple of `pre` is about a node of `ns` or about `rdf:nil`. */
  predicate AboutOthers(pre: Graph, ns: seq<Term>) {
    forall t :: t in pre ==> t.s !in ns && t.s != NIL
  }

  /** `rdf:nil`, with no triple about it, ends a walk without contributing an element. */
  lemma NilEndsWalk(g: Graph, pre: Graph, ns: seq<Term>, es: seq<Term>, seen: set<Term>)
    requires |ns| == |es| && NIL !in ns
    requires AboutOthers(pre, ns)
    requires g == pre + ListTriples(ns, es)
    ensures Walk(g, NIL, seen) == Walked([], true)
  {
    forall t | t in g ensures t.s != NIL {
      if t in ListTriples(ns, es) {
        ListTriplesSubjects(ns, es, t);
      }
    }
    assert !HasTriple(g, NIL, FIRST) && !HasTriple(g, NIL, REST);
  }

  /** One step of a walk: the node's first, then the walk from its unseen rest. */
  lemma WalkStep(g: Graph, n: Term, seen: set<Term>, e: Term, next: Term)
    requires Truthy(n)
    requires Value(g, n, FIRST) == Some(e) && Value(g, n, REST) == Some(next) && next !in seen
    ensures var rest := Walk(g, next, seen + {next});
      Walk(g, n, seen) == Walked([e] + rest.items, rest.ok)
  {
  }

  /** Node `ns[k]` of a well-formed list behind `pre` has first `es[k]` and rest the next node or nil. */
  lemma NodeLinks(g: Graph, pre: Graph, ns: seq<Term>, es: seq<Term>, k: nat)
    requires |ns| == |es| && NoDup(ns) && k < |ns|
    requires AboutOthers(pre, ns)
    requires g == pre + ListTriples(ns, es)
    ensures Value(g, ns[k], FIRST) == Some(es[k])
    ensures Value(g, ns[k], REST) == Some(if k + 1 < |ns| then ns[k + 1] else NIL)
  {
    var lt := ListTriples(ns, es);
    ListLinks(ns, es, k);
    assert !HasTriple(pre, ns[k], FIRST) && !HasTriple(pre, ns[k], REST);
    ValueSkipsPrefix(pre, lt, ns[k], FIRST);
    ValueSkipsPrefix(pre, lt, ns[k], REST);
  }

  /** The walk from the last node of a well-formed list meets its last element and ends at nil. */
  lemma WalkLast(g: Graph, pre: Graph, ns: seq<Term>, es: seq<Term>, seen: set<Term>)
    requires |ns| == |es| && |ns| > 0 && NoDup(ns) && NIL !in ns && NIL !in seen
    requires AllTruthy(ns) && AboutOthers(pre, ns)
    requires g == pre + ListTriples(ns, es)
    ensures Walk(g, ns[|ns| - 1], seen) == Walked([es[|es| - 1]], true)
  {
    NodeLinks(g, pre, ns, es, |ns| - 1);
    NilEndsWalk(g, pre, ns, es, seen + {NIL});
    assert ns[|ns| - 1] in ns;
    WalkStep(g, ns[|ns| - 1], seen, es[|es| - 1], NIL);
  }

  /** A non-empty suffix is its first element followed by the rest. */
  lemma SliceCons(es: seq<Term>, k: nat)
    requires k < |es|
    ensures es[k..] == [es[k]] + es[k + 1..]
  {
  }

  /** An inner node of a well-formed list prepends its element to the walk from the next node. */
  lemma WalkInner(g: Graph, pre: Graph, ns: seq<Term>, es: seq<Term>, k: nat)
    requires |ns| == |es| && NoDup(ns) && k + 1 < |ns|
    requires AllTruthy(ns) && AboutOthers(pre, ns)
    requires g == pre + ListTriples(ns, es)
    requires Walk(g, ns[k + 1], Elems(ns[..k + 2])) == Walked(es[k + 1..], true)
    ensures Walk(g, ns[k], Elems(ns[..k + 1])) == Walked(es[k..], true)
  {
    var seen := Elems(ns[..k + 1]);
    var next := ns[k + 1];
    assert next !in seen by {
      forall i | 0 <= i < k + 1 ensures ns[i] != next {
      }
    }
    assert seen + {next} == Elems(ns[..k + 2]) by {
      assert ns[..k + 2] == ns[..k + 1] + [next];
    }
    SliceCons(es, k);
    assert ns[k] in ns;
    NodeLinks(g, pre, ns, es, k);
    WalkStep(g, ns[k], seen, es[k], next);
  }

  /** The walk of a well-formed list, entered at node `ns[k]` with `ns[..k+1]` seen, meets `es[k..]`. */
  lemma {:induction false} WalkList(g: Graph, pre: Graph, ns: seq<Term>, es: seq<Term>, k: nat)
    requires |ns| == |es| && NoDup(ns) && NIL !in ns && k < |ns|
    requires AllTruthy(ns) && AboutOthers(pre, ns)
    requires g == pre + ListTriples(ns, es)
    ensures Walk(g, ns[k], Elems(ns[..k + 1])) == Walked(es[k..], true)
    decreases |ns| - k
  {
    if k + 1 < |ns| {
      WalkList(g, pre, ns, es, k + 1);
      WalkInner(g, pre, ns, es, k);
    } else {
      WalkLast(g, pre, ns, es, Elems(ns[..k + 1]));
      assert es[k..] == [es[k]];
    }
  }

  /**
   * Round trip: the list built from distinct, true, non-nil nodes `ns` and elements
   * `es` is recognised from its head and yields exactly `es`, in order,
   * whatever triples about other subjects than its nodes and `rdf:nil`
   * precede it.
   */
  lemma ListRoundTrip(pre: Graph, ns: seq<Term>, es: seq<Term>)
    requires |ns| == |es| && |ns| > 0 && NoDup(ns) && NIL !in ns
    requires AllTruthy(ns) && AboutOthers(pre, ns)
    ensures CollectionItems(pre + ListTriples(ns, es), ns[0]) == Some(es)
  {
    var g := pre + ListTriples(ns, es);
    WalkFromHead(g, pre, ns, es);
    ListLinks(ns, es, 0);
    ValueSkipsPrefix(pre, ListTriples(ns, es), ns[0], FIRST);
    HeadItems(g, ns[0], es);
  }

  /** The walk of a well-formed list from its head, with only the head seen, meets all its elements. */
  lemma WalkFromHead(g: Graph, pre: Graph, ns: seq<Term>, es: seq<Term>)
    requires |ns| == |es| && |ns| > 0 && NoDup(ns) && NIL !in ns
    requires AllTruthy(ns) && AboutOthers(pre, ns)
    requires g == pre + ListTriples(ns, es)
    ensures Walk(g, ns[0], {ns[0]}) == Walked(es, true)
  {
    WalkList(g, pre, ns, es, 0);
    assert Elems(ns[..1]) == {ns[0]} by {
      assert ns[..1] == [ns[0]];
    }
    assert es[0..] == es;
  }

  /** A list head whose walk succeeds is a list with the walk's elements as items. */
  lemma HeadItems(g: Graph, h: Term, es: seq<Term>)
    requires h != NIL && Value(g, h, FIRST).Some?
    requires Walk(g, h, {h}) == Walked(es, true)
    ensures CollectionItems(g, h) == Some(es)
  {
  }

  /** A node whose rest points back at itself is no list: the walk fails on the revisit. */
  lemma SelfLoopIsNoList(g: Graph, n: Term)
    requires n != NIL && Truthy(n) && HasFirst(g, n)
    requires Value(g, n, REST) == Some(n)
    ensures CollectionItems(g, n).None?
  {
  }

  /** A two-node cycle `a -> b -> a` of rest links is no list either. */
  lemma TwoCycleIsNoList(g: Graph, a: Term, b: Term)
    requires a != NIL && b != NIL && a != b && Truthy(a) && Truthy(b) && HasFirst(g, a)
    requires Value(g, a, REST) == Some(b) && Value(g, b, REST) == Some(a)
    ensures CollectionItems(g, a).None?
  {
    assert Walk(g, b, {a} + {b}).ok == false;
  }
}

=== FILE: context.dfy ===
/**
 * The active JSON-LD context, seen only through the interface the serializer uses:
 * IRI compaction, term lookup, keyword aliases and the default language. Its
 * construction and internals are not part of this model.
 */
module Ctx {
  import opened Wrappers

  /** A term's container: `@set`, `@list`, or anything else. */
  datatype Container = Plain | Set | List

  /** A declared term: output key, optional fixed value type, container. */
  datatype TermDef = TermDef(name: string, ty: Option<string>, container: Container)

  /**
   * `present` is the truthiness of the context object (false selects the expanded form);
   * `shrink` compacts an IRI; `findTerm` looks a term up by property IRI and shared datatype.
   */
  datatype Context = Context(
    present: bool,
    shrink: string -> string,
    findTerm: (string, Option<string>) -> Option<TermDef>,
    idKey: string,
    typeKey: string,
    valueKey: string,
    langKey: string,
    listKey: string,
    graphKey: string,
    language: Option<string>)

  /** The `@id` keyword as a term's fixed type. */
  const ID := "@id"

  /** The key under which the context data is embedded. */
  const CONTEXT := "@context"

  /** Python truthiness of an optional string: absent and empty are both false. */
  predicate NonEmpty(x: Option<string>) {
    x.Some? && x.value != ""
  }
}

=== FILE: document.dfy ===
/**
 * Assembling the JSON-LD document: the auto-compact context, the split of the
 * store into graphs, one object per graph, the merge into the first object and
 * the final collapse (`from_rdf`, rdflib_jsonld/serializer.py:79-135).
 */
module Document {
  import opened Wrappers
  import opened Seqs
  import opened Rdf
  import opened Json
  import opened Ctx
  import opened Property
  import opened Node

  // ---------------------------------------------------------------------------
  // Auto-compact context (lines 84-88)
  // ---------------------------------------------------------------------------

  const XML_NS := "http://www.w3.org/XML/1998/namespace"

  /** A prefix binding the auto-compact context keeps: a non-empty prefix not bound to the XML namespace. */
  predicate KeptBinding(b: (string, string)) {
    b.0 != "" && b.1 != XML_NS
  }

  /**
   * The context data derived from the store's prefix bindings: a kept binding
   * maps its prefix to its namespace, and a later binding of the same prefix wins.
   */
  function AutoContext(ns: seq<(string, string)>): (m: map<string, string>)
    ensures forall k :: k in m <==> exists i :: 0 <= i < |ns| && ns[i].0 == k && KeptBinding(ns[i])
    ensures forall i :: (0 <= i < |ns| && KeptBinding(ns[i])
              && (forall j :: i < j < |ns| ==> !(ns[j].0 == ns[i].0 && KeptBinding(ns[j])))) ==>
              m[ns[i].0] == ns[i].1
  {
    if |ns| == 0 then map[]
    else
      var init := ns[..|ns| - 1];
      var m := AutoContext(init);
      var last := ns[|ns| - 1];
      assert forall i :: 0 <= i < |init| ==> init[i] == ns[i];
      if KeptBinding(last) then m[last.0 := last.1] else m
  }

  /** The context data as a JSON object. */
  function ContextObject(m: map<string, string>): (j: J)
    ensures j.JObj? && j.obj.Keys == m.Keys
  {
    JObj(map k | k in m :: JStr(m[k]))
  }

  /** Python truthiness of the optional context data. */
  predicate HasData(data: Option<J>) {
    data.Some? && JTruthy(data.value)
  }

  /** Lines 84-88: with no (truthy) context data and auto-compact on, derive it from the prefixes. */
  function ContextData(given: Option<J>, autoCompact: bool, ns: seq<(string, string)>): (r: Option<J>)
    ensures HasData(given) || !autoCompact ==> r == given
    ensures !HasData(given) && autoCompact ==> r == Some(ContextObject(AutoContext(ns)))
  {
    if !HasData(given) && autoCompact then Some(ContextObject(AutoContext(ns))) else given
  }

  // ---------------------------------------------------------------------------
  // The graphs of a store (lines 96-106)
  // ---------------------------------------------------------------------------

  /** A graph of the store with its identifier. */
  datatype NamedGraph = NamedGraph(id: Term, triples: Graph)

  /** A store that is not context-aware holds one graph; a context-aware one any number of contexts. */
  datatype Store = Single(graph: NamedGraph) | ContextAware(contexts: seq<NamedGraph>)

  /** Each graph of the store is a set: no triple is listed twice. */
  predicate TriplesOnce(st: Store) {
    match st
    case Single(g) => NoDup(g.triples)
    case ContextAware(cs) => forall i :: 0 <= i < |cs| ==> NoDup(cs[i].triples)
  }

  /** A graph to serialize: its IRI name, if its identifier is an IRI, and its triples. */
  datatype Part = Part(name: Option<string>, triples: Graph)

  /** The IRI of an identifier that is an IRI, else none. */
  function IriName(t: Term): (r: Option<string>)
    ensures r.Some? <==> t.IRI?
    ensures t.IRI? ==> r.value == t.iri
  {
    if t.IRI? then Some(t.iri) else None
  }

  /** `a += b` on graphs: the triples of `b` not already in `a`, appended in order. */
  function Union(a: Graph, b: Graph): (r: Graph)
    ensures forall t :: t in r <==> t in a || t in b
    ensures |r| >= |a| && r[..|a|] == a
    ensures NoDup(a) ==> NoDup(r)
    decreases |b|
  {
    if |b| == 0 then a
    else
      assert b == [b[0]] + b[1..];
      var a' := if b[0] in a then a else a + [b[0]];
      assert NoDup(a) ==> NoDup(a') by {
        if NoDup(a) && b[0] !in a {
          forall i, j | 0 <= i < j < |a'| ensures a'[i] != a'[j] {
            if j == |a| {
              assert a'[i] == a[i];
            }
          }
        }
      }
      var r := Union(a', b[1..]);
      assert r[..|a|] == r[..|a'|][..|a|];
      r
  }

  /** Some context with a non-IRI identifier among `cs` holds triple `t`. */
  predicate InUnnamed(cs: seq<NamedGraph>, t: Triple) {
    exists i :: 0 <= i < |cs| && !cs[i].id.IRI? && t in cs[i].triples
  }

  /** The default graph: every context whose identifier is not an IRI, merged in order. */
  function DefaultGraph(cs: seq<NamedGraph>, acc: Graph): (r: Graph)
    ensures forall t :: t in r <==> t in acc || InUnnamed(cs, t)
    ensures NoDup(acc) ==> NoDup(r)
  {
    if |cs| == 0 then acc
    else
      var acc' := if cs[0].id.IRI? then acc else Union(acc, cs[0].triples);
      var r := DefaultGraph(cs[1..], acc');
      forall t ensures t in r <==> t in acc || InUnnamed(cs, t) {
        if InUnnamed(cs, t) && t !in acc' {
          var i :| 0 <= i < |cs| && !cs[i].id.IRI? && t in cs[i].triples;
          assert i > 0;
          assert cs[1..][i - 1] == cs[i];
        }
        if InUnnamed(cs[1..], t) {
          var i :| 0 <= i < |cs[1..]| && !cs[1..][i].id.IRI? && t in cs[1..][i].triples;
          assert cs[1..][i] == cs[i + 1];
        }
      }
      r
  }

  /** The contexts with an IRI identifier, each its own graph, in order. */
  function NamedParts(cs: seq<NamedGraph>): (r: seq<Part>)
    ensures forall i :: 0 <= i < |r| ==> r[i].name.Some?
    ensures forall iri, ts :: Part(Some(iri), ts) in r <==> NamedGraph(IRI(iri), ts) in cs
    ensures |r| <= |cs|
    ensures (forall i :: 0 <= i < |cs| ==> NoDup(cs[i].triples)) ==> forall i :: 0 <= i < |r| ==> NoDup(r[i].triples)
  {
    if |cs| == 0 then []
    else
      assert cs == [cs[0]] + cs[1..];
      assert forall i :: 0 <= i < |cs[1..]| ==> cs[1..][i] == cs[i + 1];
      (if cs[0].id.IRI? then [Part(Some(cs[0].id.iri), cs[0].triples)] else []) + NamedParts(cs[1..])
  }

  /**
   * Lines 97-106: a plain store is one graph; a context-aware store is a
   * default graph holding every context without an IRI identifier, followed by
   * each IRI-named context as its own graph.
   */
  function Partition(st: Store): (parts: seq<Part>)
    ensures |parts| >= 1
    ensures st.Single? ==> parts == [Part(IriName(st.graph.id), st.graph.triples)]
    ensures st.ContextAware? ==> parts[0].name.None?
    ensures st.ContextAware? ==> forall t :: t in parts[0].triples <==> InUnnamed(st.contexts, t)
    ensures st.ContextAware? ==> parts[1..] == NamedParts(st.contexts)
    ensures TriplesOnce(st) ==> forall i :: 0 <= i < |parts| ==> NoDup(parts[i].triples)
  {
    match st
    case Single(g) => [Part(IriName(g.id), g.triples)]
    case ContextAware(cs) =>
      var named := NamedParts(cs);
      var parts := [Part(None, DefaultGraph(cs, []))] + named;
      assert forall i :: 1 <= i < |parts| ==> parts[i] == named[i - 1];
      parts
  }

  // ---------------------------------------------------------------------------
  // One object per graph (lines 111-129)
  // ---------------------------------------------------------------------------

  /** `graphname`: the shrunk IRI of a named graph. */
  function GraphName(c: Context, part: Part): (r: Option<string>)
    ensures r.Some? <==> part.name.Some?
    ensures r.Some? ==> r.value == c.shrink(part.name.value)
  {
    if part.name.Some? then Some(c.shrink(part.name.value)) else None
  }

  /** The graph object before any node: its identifier and the embedded context data (lines 112-118). */
  function BaseObject(c: Context, graphname: Option<string>, data: Option<J>): (m: map<string, J>)
    ensures m.Keys <= {c.idKey, CONTEXT}
    ensures graphname.Some? && (c.idKey != CONTEXT || !HasData(data)) ==> c.idKey in m && m[c.idKey] == JStr(graphname.value)
    ensures HasData(data) ==> CONTEXT in m && m[CONTEXT] == data.value
    ensures graphname.None? && !HasData(data) ==> m == map[]
  {
    var m := if graphname.Some? then map[c.idKey := JStr(graphname.value)] else map[];
    if HasData(data) then m[CONTEXT := data.value] else m
  }

  /** The nodes of a graph as JSON objects. */
  function NodeValues(nodes: seq<map<string, J>>): (r: seq<J>)
    ensures |r| == |nodes|
    ensures forall i :: 0 <= i < |nodes| ==> r[i] == JObj(nodes[i])
  {
    seq(|nodes|, i requires 0 <= i < |nodes| => JObj(nodes[i]))
  }

  /** An unnamed graph with exactly one node is flattened into its object (line 120). */
  predicate Flattens(graphname: Option<string>, nodes: seq<map<string, J>>) {
    !NonEmpty(graphname) && |nodes| == 1
  }

  /**
   * Lines 119-125 as written: a graph object, or None when the graph is
   * skipped (`continue`). The graph key is set only in the expanded form, so
   * under a context the nodes of a named graph, or of a graph with several
   * nodes, are left out.
   */
  function GraphObjectAsWritten(c: Context, graphname: Option<string>, data: Option<J>, nodes: seq<map<string, J>>)
    : (r: Option<map<string, J>>)
    ensures r.None? <==> !c.present && |nodes| == 0
    ensures Flattens(graphname, nodes) ==> r == Some(BaseObject(c, graphname, data) + nodes[0])
    ensures !c.present && !Flattens(graphname, nodes) && |nodes| > 0 ==>
              r == Some(BaseObject(c, graphname, data)[c.graphKey := JArr(NodeValues(nodes))])
    ensures c.present && !Flattens(graphname, nodes) ==> r == Some(BaseObject(c, graphname, data))
  {
    var obj := BaseObject(c, graphname, data);
    if Flattens(graphname, nodes) then Some(obj + nodes[0])
    else if !c.present then
      if |nodes| == 0 then None else Some(obj[c.graphKey := JArr(NodeValues(nodes))])
    else Some(obj)
  }

  /** Node `n` is found in graph object `obj`: merged into it, or listed under the graph key. */
  predicate NodeKept(c: Context, obj: map<string, J>, n: map<string, J>) {
    (forall k :: k in n ==> k in obj && obj[k] == n[k])
    || (c.graphKey in obj && obj[c.graphKey].JArr? && JObj(n) in obj[c.graphKey].items)
  }

  /**
   * With a context, two IRI subjects in one default graph yield a graph object
   * holding neither node: only the identifier and context entries remain.
   */
  lemma AsWrittenDropsNodes(c: Context, data: Option<J>, n1: map<string, J>, n2: map<string, J>)
    requires c.present
    requires c.graphKey !in BaseObject(c, None, data)
    requires c.graphKey in n1 || exists k :: k in n1 && k !in BaseObject(c, None, data)
    ensures var r := GraphObjectAsWritten(c, None, data, [n1, n2]);
      r.Some? && !NodeKept(c, r.value, n1)
  {
  }

  /**
   * The graph object, corrected: whenever the nodes are not flattened into it
   * and there are some, they go under the graph key, with or without a context.
   * Every node of the graph is kept.
   */
  function GraphObject(c: Context, graphname: Option<string>, data: Option<J>, nodes: seq<map<string, J>>)
    : (r: Option<map<string, J>>)
    ensures r.None? <==> !c.present && |nodes| == 0
    ensures r.Some? ==> forall i :: 0 <= i < |nodes| ==> NodeKept(c, r.value, nodes[i])
    ensures r.Some? && !Flattens(graphname, nodes) && |nodes| > 0 ==>
              r.value == BaseObject(c, graphname, data)[c.graphKey := JArr(NodeValues(nodes))]
    ensures r.Some? && |nodes| == 0 ==> r.value == BaseObject(c, graphname, data)
  {
    var obj := BaseObject(c, graphname, data);
    if Flattens(graphname, nodes) then Some(obj + nodes[0])
    else if |nodes| == 0 then
      if !c.present then None else Some(obj)
    else
      var r := obj[c.graphKey := JArr(NodeValues(nodes))];
      assert forall i :: 0 <= i < |nodes| ==> JObj(nodes[i]) in r[c.graphKey].items;
      Some(r)
  }

  /**
   * The code as written and the corrected graph object agree except under a
   * context for a graph with nodes that are not flattened: in the expanded
   * form, for a flattened single node, and for a graph without nodes.
   */
  lemma GraphObjectsAgree(c: Context, graphname: Option<string>, data: Option<J>, nodes: seq<map<string, J>>)
    ensures !c.present || Flattens(graphname, nodes) || |nodes| == 0 ==>
              GraphObjectAsWritten(c, graphname, data, nodes) == GraphObject(c, graphname, data, nodes)
  {
  }

  /** The graph object under reading `rd`. */
  function GraphObjectFor(rd: Reading, c: Context, graphname: Option<string>, data: Option<J>, nodes: seq<map<string, J>>)
    : (r: Option<map<string, J>>)
    ensures rd == AsWritten ==> r == GraphObjectAsWritten(c, graphname, data, nodes)
    ensures rd == Corrected ==> r == GraphObject(c, graphname, data, nodes)
  {
    if rd == AsWritten then GraphObjectAsWritten(c, graphname, data, nodes) else GraphObject(c, graphname, data, nodes)
  }

  /** `objs[0].get(id_key) == graphname` (line 126): both absent, or the same string. */
  predicate SameName(c: Context, m: map<string, J>, graphname: Option<string>) {
    if c.idKey in m then graphname.Some? && m[c.idKey] == JStr(graphname.value) else graphname.None?
  }

  /** Lines 126-129: merge into the first object when it bears this graph's name, else append. */
  function Place(c: Context, objs: seq<map<string, J>>, obj: map<string, J>, graphname: Option<string>)
    : (r: seq<map<string, J>>)
    ensures |objs| > 0 && SameName(c, objs[0], graphname) ==>
              |r| == |objs| && r[0] == objs[0] + obj && r[1..] == objs[1..]
    ensures !(|objs| > 0 && SameName(c, objs[0], graphname)) ==> r == objs + [obj]
    ensures |r| > 0 && (obj.Items <= r[0].Items || r[|r| - 1] == obj)
    ensures forall i :: 0 <= i < |objs| ==> objs[i].Keys <= r[i].Keys
  {
    if |objs| > 0 && SameName(c, objs[0], graphname) then [objs[0] + obj] + objs[1..]
    else objs + [obj]
  }

  /** The graph is skipped: expanded form and no top-level node. */
  predicate Skipped(c: Context, part: Part) {
    !c.present && |TopLevelSubjects(part.triples)| == 0
  }

  /** Every graph's nodes can be built without an exception. */
  predicate PartsOk(rd: Reading, c: Context, parts: seq<Part>, depth: nat) {
    forall i :: 0 <= i < |parts| ==> GraphOk(rd, parts[i].triples, c, depth)
  }

  /** The loop at lines 111-129 over the graphs `parts`, continuing from the objects `objs`. */
  function Assemble(rd: Reading, c: Context, data: Option<J>, parts: seq<Part>, depth: nat, objs: seq<map<string, J>>)
    : (r: seq<map<string, J>>)
    requires PartsOk(rd, c, parts, depth)
    ensures |objs| <= |r| <= |objs| + |parts|
    ensures |r| == 0 <==> |objs| == 0 && forall i :: 0 <= i < |parts| ==> Skipped(c, parts[i])
    decreases |parts|
  {
    if |parts| == 0 then objs
    else
      var part := parts[0];
      var graphname := GraphName(c, part);
      var nodes := FromGraph(rd, part.triples, c, depth);
      var next := match GraphObjectFor(rd, c, graphname, data, nodes)
        case None => objs
        case Some(obj) => Place(c, objs, obj, graphname);
      assert PartsOk(rd, c, parts[1..], depth) by {
        forall i | 0 <= i < |parts[1..]| ensures GraphOk(rd, parts[1..][i].triples, c, depth) {
          assert parts[1..][i] == parts[i + 1];
        }
      }
      var r := Assemble(rd, c, data, parts[1..], depth, next);
      assert (forall i :: 0 <= i < |parts| ==> Skipped(c, parts[i]))
         <==> Skipped(c, parts[0]) && forall i :: 0 <= i < |parts[1..]| ==> Skipped(c, parts[1..][i]) by {
        assert forall i :: 0 <= i < |parts[1..]| ==> parts[1..][i] == parts[i + 1];
      }
      r
  }

  // ---------------------------------------------------------------------------
  // Final collapse and the entry point (lines 130-135)
  // ---------------------------------------------------------------------------

  /** The output collapses to its first object: one object under a context, or one graph in all. */
  predicate Collapses(c: Context, objs: seq<map<string, J>>, graphs: nat) {
    (|objs| == 1 && c.present) || graphs == 1
  }

  /** A map with one key, `k` among them, has `k` as its only key. */
  lemma SingleKey(m: map<string, J>, k: string)
    requires |m| == 1 && k in m
    ensures m.Keys == {k}
  {
    var rest := m.Keys - {k};
    assert m.Keys == rest + {k};
    assert |m.Keys| == |m|;
  }

  /**
   * Lines 130-135: the single object, or the array under its graph key when
   * that is its only key; otherwise the list of all objects.
   */
  function Collapse(c: Context, objs: seq<map<string, J>>, graphs: nat): (r: J)
    requires Collapses(c, objs, graphs) ==> |objs| > 0
    ensures !Collapses(c, objs, graphs) ==> r == JArr(NodeValues(objs))
    ensures Collapses(c, objs, graphs) && objs[0].Keys == {c.graphKey} && JTruthy(objs[0][c.graphKey]) ==>
              r == objs[0][c.graphKey]
    ensures Collapses(c, objs, graphs) && !(objs[0].Keys == {c.graphKey} && JTruthy(objs[0][c.graphKey])) ==>
              r == JObj(objs[0])
  {
    if Collapses(c, objs, graphs) then
      var o := objs[0];
      if |o| == 1 && c.graphKey in o && JTruthy(o[c.graphKey]) then
        SingleKey(o, c.graphKey);
        o[c.graphKey]
      else
        JObj(o)
    else
      JArr(NodeValues(objs))
  }

  /**
   * The store is well formed and can be serialized without an exception:
   * its graphs are sets of triples, nodes build, and a lone skipped graph is
   * not indexed.
   */
  predicate DocumentOk(rd: Reading, st: Store, c: Context, depth: nat) {
    var parts := Partition(st);
    && TriplesOnce(st)
    && PartsOk(rd, c, parts, depth)
    && !(|parts| == 1 && Skipped(c, parts[0]))
  }

  /**
   * `from_rdf`: the JSON-LD document of store `st` under context `c`, with
   * `data` the context data to embed (already derived as in `ContextData`).
   * `depth` bounds list nesting, standing for Python's recursion limit.
   */
  function FromRdf(rd: Reading, st: Store, c: Context, data: Option<J>, depth: nat): (r: J)
    requires DocumentOk(rd, st, c, depth)
    ensures !c.present && |Partition(st)| > 1 ==> r.JArr?
  {
    var parts := Partition(st);
    var objs := Assemble(rd, c, data, parts, depth, []);
    Collapse(c, objs, |parts|)
  }

  /**
   * A plain store whose graph has no IRI name and exactly one top-level node
   * serializes as that node's object, with the context data beside it.
   */
  lemma SingleNodeDocument(rd: Reading, id: Term, g: Graph, c: Context, data: Option<J>, depth: nat)
    requires !id.IRI? && |TopLevelSubjects(g)| == 1
    requires DocumentOk(rd, Single(NamedGraph(id, g)), c, depth)
    ensures var obj := BaseObject(c, None, data) + FromGraph(rd, g, c, depth)[0];
      FromRdf(rd, Single(NamedGraph(id, g)), c, data, depth)
      == if obj.Keys == {c.graphKey} && JTruthy(obj[c.graphKey]) then obj[c.graphKey] else JObj(obj)
  {
    var st := Single(NamedGraph(id, g));
    var parts := Partition(st);
    assert parts == [Part(None, g)];
    var nodes := FromGraph(rd, g, c, depth);
    var obj := BaseObject(c, None, data) + nodes[0];
    assert GraphObjectFor(rd, c, None, data, nodes) == Some(obj);
    assert Place(c, [], obj, None) == [obj];
    assert Assemble(rd, c, data, parts, depth, []) == Assemble(rd, c, data, parts[1..], depth, [obj]);
    assert Assemble(rd, c, data, parts, depth, []) == [obj];
  }

  /**
   * In the expanded form, a plain store whose graph has several top-level
   * nodes and no IRI name serializes as the bare array of its nodes.
   */
  lemma ExpandedNodesArray(rd: Reading, id: Term, g: Graph, c: Context, depth: nat)
    requires !id.IRI? && !c.present && |TopLevelSubjects(g)| > 1
    requires DocumentOk(rd, Single(NamedGraph(id, g)), c, depth)
    ensures FromRdf(rd, Single(NamedGraph(id, g)), c, None, depth) == JArr(NodeValues(FromGraph(rd, g, c, depth)))
  {
    var parts := Partition(Single(NamedGraph(id, g)));
    var nodes := FromGraph(rd, g, c, depth);
    var obj := BaseObject(c, None, None)[c.graphKey := JArr(NodeValues(nodes))];
    assert GraphObjectFor(rd, c, None, None, nodes) == Some(obj);
    assert Assemble(rd, c, None, parts, depth, []) == Assemble(rd, c, None, parts[1..], depth, [obj]);
    assert obj.Keys == {c.graphKey};
  }

  /** Node `n` can be found in document `r`: kept in its one object, or listed in its array. */
  predicate InDocument(c: Context, r: J, n: map<string, J>) {
    (r.JObj? && NodeKept(c, r.obj, n)) || (r.JArr? && JObj(n) in r.items)
  }

  /** A plain store with nodes yields one graph object, which the final collapse then unwraps or keeps. */
  lemma PlainStoreObject(rd: Reading, id: Term, g: Graph, c: Context, data: Option<J>, depth: nat)
    requires DocumentOk(rd, Single(NamedGraph(id, g)), c, depth)
    requires |TopLevelSubjects(g)| > 0
    ensures var obj := GraphObjectFor(rd, c, GraphName(c, Part(IriName(id), g)), data, FromGraph(rd, g, c, depth));
      obj.Some? && FromRdf(rd, Single(NamedGraph(id, g)), c, data, depth) == Collapse(c, [obj.value], 1)
  {
    var st := Single(NamedGraph(id, g));
    var parts := Partition(st);
    assert parts == [Part(IriName(id), g)];
    var gn := GraphName(c, parts[0]);
    var nodes := FromGraph(rd, g, c, depth);
    var obj := GraphObjectFor(rd, c, gn, data, nodes).value;
    assert Place(c, [], obj, gn) == [obj];
    assert Assemble(rd, c, data, parts, depth, []) == Assemble(rd, c, data, parts[1..], depth, [obj]);
    assert Assemble(rd, c, data, parts, depth, []) == [obj];
  }

  /**
   * As written, under a context, a plain store whose unnamed graph has several
   * top-level nodes serializes as its bare graph object: the context data and
   * none of the nodes.
   */
  lemma AsWrittenDocumentDropsNodes(id: Term, g: Graph, c: Context, data: Option<J>, depth: nat)
    requires !id.IRI? && c.present && c.graphKey != CONTEXT
    requires |TopLevelSubjects(g)| > 1
    requires DocumentOk(AsWritten, Single(NamedGraph(id, g)), c, depth)
    ensures FromRdf(AsWritten, Single(NamedGraph(id, g)), c, data, depth) == JObj(BaseObject(c, None, data))
  {
    PlainStoreObject(AsWritten, id, g, c, data, depth);
    var obj := BaseObject(c, None, data);
    assert GraphName(c, Part(IriName(id), g)).None?;
    assert c.graphKey !in obj;
  }

  /** The collapse of a lone graph object loses none of its nodes, when no node uses the graph key. */
  lemma CollapseKeepsNodes(c: Context, gn: Option<string>, data: Option<J>, nodes: seq<map<string, J>>)
    requires |nodes| > 0
    requires c.graphKey != c.idKey && c.graphKey != CONTEXT
    requires forall i :: 0 <= i < |nodes| ==> c.graphKey !in nodes[i]
    ensures var obj := GraphObject(c, gn, data, nodes);
      obj.Some? && forall i :: 0 <= i < |nodes| ==> InDocument(c, Collapse(c, [obj.value], 1), nodes[i])
  {
    var obj := GraphObject(c, gn, data, nodes).value;
    var r := Collapse(c, [obj], 1);
    if Flattens(gn, nodes) {
      assert c.graphKey !in obj;
      assert r == JObj(obj);
    } else if obj.Keys == {c.graphKey} {
      assert r == JArr(NodeValues(nodes));
      assert forall i :: 0 <= i < |nodes| ==> JObj(nodes[i]) == r.items[i];
    } else {
      assert r == JObj(obj);
    }
  }

  /**
   * Nothing is lost: every node of a plain store's graph can be found in the
   * document, provided no property is keyed like the graph keyword and that
   * keyword differs from the identifier and context keywords.
   */
  lemma PlainStoreKeepsNodes(id: Term, g: Graph, c: Context, data: Option<J>, depth: nat)
    requires DocumentOk(Corrected, Single(NamedGraph(id, g)), c, depth)
    requires c.graphKey != c.idKey && c.graphKey != CONTEXT
    requires forall i :: 0 <= i < |FromGraph(Corrected, g, c, depth)| ==> c.graphKey !in FromGraph(Corrected, g, c, depth)[i]
    ensures forall i :: 0 <= i < |FromGraph(Corrected, g, c, depth)| ==>
              InDocument(c, FromRdf(Corrected, Single(NamedGraph(id, g)), c, data, depth), FromGraph(Corrected, g, c, depth)[i])
  {
    var nodes := FromGraph(Corrected, g, c, depth);
    if |nodes| > 0 {
      PlainStoreObject(Corrected, id, g, c, data, depth);
      CollapseKeepsNodes(c, GraphName(c, Part(IriName(id), g)), data, nodes);
    }
  }
}

=== FILE: json.dfy ===
/** The JSON-LD output tree: objects, arrays and strings. */
module Json {

  /** A JSON value. Literal lexical forms, shrunk IRIs and blank-node labels are all strings. */
  datatype J = JObj(obj: map<string, J>) | JArr(items: seq<J>) | JStr(str: string)

  /** Python truthiness of a JSON value: an empty object, array or string is false. */
  predicate JTruthy(j: J) {
    match j
    case JObj(m) => |m| > 0
    case JArr(s) => |s| > 0
    case JStr(s) => s != ""
  }
}

=== FILE: node.dfy ===
/**
 * Node objects: which subjects become top-level nodes, and the object built
 * for each (`_from_graph` and `_subject_to_node`, rdflib_jsonld/serializer.py:138-169).
 */
module Node {
  import opened Wrappers
  import opened Seqs
  import opened Rdf
  import opened Json
  import opened Ctx
  import opened Property

  /** A subject gets its own top-level node: an IRI, or a blank node without a truthy `rdf:first` object (lines 144-148). */
  predicate IsTopLevel(g: Graph, s: Term) {
    s.IRI? || (s.BNode? && !HasTruthyFirst(g, s))
  }

  /** Keep the top-level candidates of `ss`, in order. */
  function KeepTopLevel(g: Graph, ss: seq<Term>): (r: seq<Term>)
    ensures forall s :: s in r <==> s in ss && IsTopLevel(g, s)
    ensures NoDup(ss) ==> NoDup(r)
  {
    if |ss| == 0 then []
    else
      assert ss == [ss[0]] + ss[1..];
      var rest := KeepTopLevel(g, ss[1..]);
      assert NoDup(ss) ==> ss[0] !in ss[1..] && NoDup(ss[1..]) by {
        if NoDup(ss) {
          NoDupTail(ss);
        }
      }
      if IsTopLevel(g, ss[0]) then [ss[0]] + rest else rest
  }

  /**
   * The subjects `_from_graph` builds nodes for: exactly the IRI subjects and
   * the blank-node subjects without a truthy `rdf:first` object, each once.
   */
  function TopLevelSubjects(g: Graph): (r: seq<Term>)
    ensures NoDup(r)
    ensures forall s :: s in r <==> IsSubject(g, s) && IsTopLevel(g, s)
  {
    KeepTopLevel(g, Subjects(g))
  }

  /** The identifier entry of a node (lines 157-160). */
  function IdEntry(g: Graph, c: Context, s: Term): (m: map<string, J>)
    ensures s.IRI? ==> m == map[c.idKey := JStr(c.shrink(s.iri))]
    ensures s.BNode? && IsReferenced(g, s) ==> m == map[c.idKey := JStr(N3(s.name))]
    ensures c.idKey in m <==> s.IRI? || (s.BNode? && IsReferenced(g, s))
    ensures m.Keys <= {c.idKey}
  {
    match s
    case IRI(i) => map[c.idKey := JStr(c.shrink(i))]
    case BNode(n) => if IsReferenced(g, s) then map[c.idKey := JStr(N3(n))] else map[]
    case Lit(_, _, _) => map[]
  }

  /** Every property of `s` named in `ps` can be shaped without an exception. */
  predicate PropertiesOk(rd: Reading, g: Graph, c: Context, s: Term, ps: seq<string>, depth: nat) {
    forall p :: p in ps ==> HasTriple(g, s, p) && PropertyOk(rd, g, c, p, ObjectsOf(g, s, p), depth)
  }

  /** The `(p_key, node)` pair of each property in `ps`, in order. */
  function Entries(rd: Reading, g: Graph, c: Context, s: Term, ps: seq<string>, depth: nat): (r: seq<(string, J)>)
    requires PropertiesOk(rd, g, c, s, ps, depth)
    ensures |r| == |ps|
    ensures forall i :: 0 <= i < |ps| ==> r[i] == KeyAndNode(rd, g, c, ps[i], ObjectsOf(g, s, ps[i]), depth)
  {
    if |ps| == 0 then []
    else
      assert ps[0] in ps;
      [KeyAndNode(rd, g, c, ps[0], ObjectsOf(g, s, ps[0]), depth)] + Entries(rd, g, c, s, ps[1..], depth)
  }

  /** The keys of a sequence of entries. */
  function KeysOf(kvs: seq<(string, J)>): set<string> {
    set kv | kv in kvs :: kv.0
  }

  /** No entry after the `i`-th reuses its key. */
  predicate LastWithKey(kvs: seq<(string, J)>, i: int)
    requires 0 <= i < |kvs|
  {
    forall j :: i < j < |kvs| ==> kvs[j].0 != kvs[i].0
  }

  /** The keys of a non-empty sequence of entries: the first entry's key and the rest's keys. */
  lemma KeysOfCons(kvs: seq<(string, J)>)
    requires |kvs| > 0
    ensures KeysOf(kvs) == {kvs[0].0} + KeysOf(kvs[1..])
  {
    assert kvs == [kvs[0]] + kvs[1..];
  }

  /** An entry after the first that is last with its key stays so in the tail. */
  lemma LastWithKeyTail(kvs: seq<(string, J)>, i: int)
    requires 0 < i < |kvs| && LastWithKey(kvs, i)
    ensures LastWithKey(kvs[1..], i - 1) && kvs[1..][i - 1] == kvs[i]
  {
    forall j | i - 1 < j < |kvs[1..]| ensures kvs[1..][j].0 != kvs[i].0 {
      assert kvs[1..][j] == kvs[j + 1];
    }
  }

  /** A first entry that is last with its key has a key the tail does not use. */
  lemma LastWithKeyHead(kvs: seq<(string, J)>)
    requires 0 < |kvs| && LastWithKey(kvs, 0)
    ensures kvs[0].0 !in KeysOf(kvs[1..])
  {
    forall kv | kv in kvs[1..] ensures kv.0 != kvs[0].0 {
      var j :| 0 <= j < |kvs[1..]| && kvs[1..][j] == kv;
      assert kvs[1..][j] == kvs[j + 1];
    }
  }

  /**
   * The loop at lines 165-167: set each entry's key to its value, in order,
   * a later entry overwriting an earlier one with the same key.
   */
  function PutAll(acc: map<string, J>, kvs: seq<(string, J)>): (r: map<string, J>)
    ensures r.Keys == acc.Keys + KeysOf(kvs)
    ensures forall k :: k in acc && k !in KeysOf(kvs) ==> r[k] == acc[k]
    ensures forall i :: 0 <= i < |kvs| && LastWithKey(kvs, i) ==> r[kvs[i].0] == kvs[i].1
    decreases |kvs|
  {
    if |kvs| == 0 then acc
    else
      var r := PutAll(acc[kvs[0].0 := kvs[0].1], kvs[1..]);
      KeysOfCons(kvs);
      forall i | 0 <= i < |kvs| && LastWithKey(kvs, i) ensures r[kvs[i].0] == kvs[i].1 {
        if i > 0 {
          LastWithKeyTail(kvs, i);
        } else {
          LastWithKeyHead(kvs);
        }
      }
      r
  }

  /** Every property of `s` can be rendered without an exception. */
  predicate NodeOk(rd: Reading, g: Graph, c: Context, s: Term, depth: nat) {
    PropertiesOk(rd, g, c, s, PredicatesOf(g, s), depth)
  }

  /** The entries of all of `s`'s distinct predicates. */
  function NodeEntries(rd: Reading, g: Graph, c: Context, s: Term, depth: nat): (r: seq<(string, J)>)
    requires NodeOk(rd, g, c, s, depth)
    ensures |r| == |PredicatesOf(g, s)|
  {
    Entries(rd, g, c, s, PredicatesOf(g, s), depth)
  }

  /**
   * `_subject_to_node`: the node object of subject `s`. Its keys are its
   * identifier key (when it has one) and one key per distinct predicate;
   * a key no later predicate reuses holds that predicate's value.
   */
  function SubjectToNode(rd: Reading, g: Graph, c: Context, s: Term, depth: nat): (r: map<string, J>)
    requires NodeOk(rd, g, c, s, depth)
    ensures r.Keys == IdEntry(g, c, s).Keys + KeysOf(NodeEntries(rd, g, c, s, depth))
    ensures c.idKey !in KeysOf(NodeEntries(rd, g, c, s, depth)) ==>
              (c.idKey in r <==> s.IRI? || (s.BNode? && IsReferenced(g, s)))
    ensures c.idKey !in KeysOf(NodeEntries(rd, g, c, s, depth)) && c.idKey in IdEntry(g, c, s) ==>
              r[c.idKey] == IdEntry(g, c, s)[c.idKey]
    ensures forall p :: p in PredicatesOf(g, s) ==> Handles(rd, c, p, ObjectsOf(g, s, p)).key in r
  {
    var ps := PredicatesOf(g, s);
    var kvs := NodeEntries(rd, g, c, s, depth);
    forall p | p in ps ensures Handles(rd, c, p, ObjectsOf(g, s, p)).key in KeysOf(kvs) {
      var i :| 0 <= i < |ps| && ps[i] == p;
      assert kvs[i] in kvs;
    }
    PutAll(IdEntry(g, c, s), kvs)
  }

  /** Entries with pairwise distinct keys have as many keys as entries. */
  lemma {:induction false} DistinctKeysCount(kvs: seq<(string, J)>)
    requires forall i, j :: 0 <= i < j < |kvs| ==> kvs[i].0 != kvs[j].0
    ensures |KeysOf(kvs)| == |kvs|
  {
    if |kvs| > 0 {
      assert kvs == [kvs[0]] + kvs[1..];
      assert KeysOf(kvs) == {kvs[0].0} + KeysOf(kvs[1..]);
      assert kvs[0].0 !in KeysOf(kvs[1..]) by {
        forall kv | kv in kvs[1..] ensures kv.0 != kvs[0].0 {
          var j :| 0 <= j < |kvs[1..]| && kvs[1..][j] == kv;
          assert kvs[1..][j] == kvs[j + 1];
        }
      }
      assert forall i, j :: 0 <= i < j < |kvs[1..]| ==> kvs[1..][i] == kvs[i + 1] && kvs[1..][j] == kvs[j + 1];
      DistinctKeysCount(kvs[1..]);
    }
  }

  /**
   * When the distinct predicates of `s` have pairwise distinct keys, none of
   * them the identifier key, the node has exactly one key per predicate besides
   * its identifier, and each key holds its predicate's value.
   */
  lemma OneKeyPerPredicate(rd: Reading, g: Graph, c: Context, s: Term, depth: nat)
    requires NodeOk(rd, g, c, s, depth)
    requires var kvs := NodeEntries(rd, g, c, s, depth);
      forall i, j :: 0 <= i < j < |kvs| ==> kvs[i].0 != kvs[j].0
    requires c.idKey !in KeysOf(NodeEntries(rd, g, c, s, depth))
    ensures |SubjectToNode(rd, g, c, s, depth)| == |PredicatesOf(g, s)| + |IdEntry(g, c, s)|
    ensures forall i :: 0 <= i < |PredicatesOf(g, s)| ==>
              var p := PredicatesOf(g, s)[i];
              SubjectToNode(rd, g, c, s, depth)[Handles(rd, c, p, ObjectsOf(g, s, p)).key]
              == KeyAndNode(rd, g, c, p, ObjectsOf(g, s, p), depth).1
  {
    var kvs := NodeEntries(rd, g, c, s, depth);
    DistinctKeysCount(kvs);
    var ids := IdEntry(g, c, s).Keys;
    assert ids !! KeysOf(kvs);
    assert |ids + KeysOf(kvs)| == |ids| + |KeysOf(kvs)|;
  }

  /** Every top-level subject's node can be built without an exception. */
  predicate GraphOk(rd: Reading, g: Graph, c: Context, depth: nat) {
    forall s :: s in TopLevelSubjects(g) ==> NodeOk(rd, g, c, s, depth)
  }

  /** The node objects of the given subjects, in order. */
  function NodesOf(rd: Reading, g: Graph, c: Context, ss: seq<Term>, depth: nat): (r: seq<map<string, J>>)
    requires forall s :: s in ss ==> NodeOk(rd, g, c, s, depth)
    ensures |r| == |ss|
    ensures forall i :: 0 <= i < |ss| ==> r[i] == SubjectToNode(rd, g, c, ss[i], depth)
  {
    if |ss| == 0 then []
    else
      assert ss[0] in ss;
      [SubjectToNode(rd, g, c, ss[0], depth)] + NodesOf(rd, g, c, ss[1..], depth)
  }

  /** `_from_graph`: one node object per top-level subject. */
  function FromGraph(rd: Reading, g: Graph, c: Context, depth: nat): (r: seq<map<string, J>>)
    requires GraphOk(rd, g, c, depth)
    ensures |r| == |TopLevelSubjects(g)|
    ensures forall i :: 0 <= i < |r| ==> r[i] == SubjectToNode(rd, g, c, TopLevelSubjects(g)[i], depth)
  {
    NodesOf(rd, g, c, TopLevelSubjects(g), depth)
  }
}

=== FILE: property.dfy ===
/**
 * Shaping one property of one subject: the shared datatype, the term lookup,
 * the output key, single value or array, and how each object is rendered
 * (`_handles_for_property` and `_key_and_node`, rdflib_jsonld/serializer.py:172-222).
 */
module Property {
  import opened Wrappers
  import opened Rdf
  import opened Json
  import opened Ctx
  import opened Collection
  import opened Render

  /** Every object is a literal with datatype `d`. */
  predicate AllTyped(objs: seq<Term>, d: string) {
    forall o :: o in objs ==> o.Lit? && o.dt == Some(d)
  }

  /** The loop at lines 189-192, comparing datatypes: keep `d` while every remaining object is a literal typed `d`. */
  function ScanDatatype(rest: seq<Term>, d: string): (r: Option<string>)
    ensures r.Some? <==> AllTyped(rest, d)
    ensures r.Some? ==> r.value == d
  {
    if |rest| == 0 then Some(d)
    else if !rest[0].Lit? || rest[0].dt != Some(d) then
      assert rest[0] in rest;
      None
    else
      assert rest == [rest[0]] + rest[1..];
      ScanDatatype(rest[1..], d)
  }

  /** `unicode(x)` of an optional datatype: a missing one prints as the string "None". */
  function PyStr(x: Option<string>): string {
    match x
    case None => "None"
    case Some(s) => s
  }

  /**
   * Lines 187-194 as written. The first literal's datatype goes through
   * `unicode`, so a lone literal without datatype yields the string "None".
   * Line 190 then compares each later object's datatype, a URIRef or None,
   * with that unicode string; rdflib's term equality holds only between terms
   * of one same type, so the two always differ and the first later object
   * resets the datatype.
   */
  function SharedDatatypeAsWritten(objs: seq<Term>): (r: Option<string>)
    requires |objs| > 0
    ensures r.Some? <==> objs[0].Lit? && |objs| == 1
    ensures r.Some? ==> r.value == PyStr(objs[0].dt)
    ensures objs[0].Lit? && objs[0].dt.Some? && |objs| == 1 ==> r == SharedDatatype(objs)
  {
    if objs[0].Lit? then
      if |objs| == 1 then Some(PyStr(objs[0].dt)) else None
    else None
  }

  /**
   * The shared datatype, as intended: the datatype of every object when all
   * of them are literals with one same datatype, and None otherwise. The
   * scan at lines 189-192 compares datatypes with datatypes.
   */
  function SharedDatatype(objs: seq<Term>): (r: Option<string>)
    requires |objs| > 0
    ensures r.Some? ==> AllTyped(objs, r.value)
    ensures forall d :: AllTyped(objs, d) ==> r == Some(d)
  {
    if objs[0].Lit? && objs[0].dt.Some? then
      assert objs == [objs[0]] + objs[1..];
      ScanDatatype(objs[1..], objs[0].dt.value)
    else
      assert objs[0] in objs;
      None
  }

  /**
   * The discrepancy: one plain literal gives the datatype "None", and two
   * literals of one same datatype give none at all. The corrected version
   * gives none for the first and the shared datatype for the second.
   */
  lemma DatatypeDiscrepancy(lex: string, d: string)
    ensures SharedDatatypeAsWritten([Lit(lex, None, None)]) == Some("None")
    ensures SharedDatatype([Lit(lex, None, None)]).None?
    ensures SharedDatatypeAsWritten([Lit(lex, Some(d), None), Lit(lex, Some(d), None)]).None?
    ensures SharedDatatype([Lit(lex, Some(d), None), Lit(lex, Some(d), None)]) == Some(d)
  {
    assert AllTyped([Lit(lex, Some(d), None), Lit(lex, Some(d), None)], d);
  }

  /** Which reading of the serializer to follow: the code as written, or with its defects corrected. */
  datatype Reading = AsWritten | Corrected

  /** The datatype `find_term` is asked for (line 196) under reading `rd`. */
  function LookupDatatype(rd: Reading, objs: seq<Term>): (r: Option<string>)
    requires |objs| > 0
    ensures rd == AsWritten ==> r == SharedDatatypeAsWritten(objs)
    ensures rd == Corrected ==> r == SharedDatatype(objs)
  {
    if rd == AsWritten then SharedDatatypeAsWritten(objs) else SharedDatatype(objs)
  }

  /** How each object is rendered: the renderers chosen at lines 183-185 and 207-209. */
  datatype Mode =
    | Raw                  // `_to_raw_value`
    | BareId               // `iri_to_id`: a shrunk IRI, or the term itself
    | TypedPass(ty: string) // the bare literal when `unicode` of its datatype is the term's type

  /** What `_handles_for_property` decides: key, array or not, renderer, and the list unwrap of line 220. */
  datatype Shape = Shape(key: string, many: bool, mode: Mode, unwrapList: bool)

  /** The renderer a found term selects by its fixed type (lines 203-209). */
  function TermMode(t: TermDef): (m: Mode)
    ensures !NonEmpty(t.ty) ==> m == Raw
    ensures NonEmpty(t.ty) && t.ty.value == ID ==> m == BareId
    ensures NonEmpty(t.ty) && t.ty.value != ID ==> m == TypedPass(t.ty.value)
  {
    if NonEmpty(t.ty) then (if t.ty.value == ID then BareId else TypedPass(t.ty.value)) else Raw
  }

  /** `_handles_for_property`: the shape of property `p` with objects `objs`. */
  function Handles(rd: Reading, c: Context, p: string, objs: seq<Term>): (h: Shape)
    requires |objs| > 0
    ensures var t := c.findTerm(p, LookupDatatype(rd, objs));
      && (t.Some? ==> h.key == t.value.name && h.mode == TermMode(t.value))
      && (t.Some? && t.value.container == Set ==> h.many)
      && (t.Some? && t.value.container != Set ==> (h.many <==> |objs| != 1))
      && (t.Some? ==> (h.unwrapList <==> t.value.container == List))
      && (t.None? && p == TYPE ==> h.key == c.typeKey && h.mode == BareId)
      && (t.None? && p != TYPE ==> h.key == c.shrink(p) && h.mode == Raw)
      && (t.None? ==> (h.many <==> !c.present || |objs| != 1) && !h.unwrapList)
  {
    var term := c.findTerm(p, LookupDatatype(rd, objs));
    match term
    case Some(t) =>
      Shape(t.name, t.container == Set || |objs| != 1, TermMode(t), t.container == List)
    case None =>
      var many := !c.present || |objs| != 1;
      if p == TYPE then Shape(c.typeKey, many, BareId, false)
      else Shape(c.shrink(p), many, Raw, false)
  }

  /** `iri_to_id`: an IRI becomes its shrunk form; any other term is emitted as itself. */
  function BareIdValue(c: Context, o: Term): (r: J)
    ensures r.JStr?
    ensures o.IRI? ==> r.str == c.shrink(o.iri)
    ensures o.BNode? ==> r.str == o.name
    ensures o.Lit? ==> r.str == o.lex
  {
    match o
    case IRI(i) => JStr(c.shrink(i))
    case BNode(n) => JStr(n)
    case Lit(lex, _, _) => JStr(lex)
  }

  /** The renderer can run on `o` without a Python exception. */
  predicate ModeOk(g: Graph, m: Mode, o: Term, depth: nat) {
    match m
    case Raw => Nested(g, o, depth)
    case BareId => true
    case TypedPass(t) => o.Lit? && (PyStr(o.dt) != t ==> Nested(g, o, depth))
  }

  /** Applying the renderer chosen by the mode, before any list unwrap. */
  function ModeValue(g: Graph, c: Context, m: Mode, o: Term, depth: nat): (r: J)
    requires ModeOk(g, m, o, depth)
    ensures m == BareId ==> r.JStr?
    ensures m.TypedPass? && PyStr(o.dt) == m.ty ==> r == JStr(o.lex)
    ensures m == Raw || (m.TypedPass? && PyStr(o.dt) != m.ty) ==> r == RawValue(g, c, o, depth)
  {
    match m
    case Raw => RawValue(g, c, o, depth)
    case BareId => BareIdValue(c, o)
    case TypedPass(t) => if PyStr(o.dt) == t then JStr(o.lex) else RawValue(g, c, o, depth)
  }

  /** Rendering `o` under shape `h` raises nothing; a list unwrap needs the list key. */
  predicate ValueOk(g: Graph, c: Context, h: Shape, o: Term, depth: nat) {
    && ModeOk(g, h.mode, o, depth)
    && (h.unwrapList ==> var v := ModeValue(g, c, h.mode, o, depth); v.JObj? && c.listKey in v.obj)
  }

  /** `repr_value(o)` after line 220: the chosen renderer, then the list unwrap for a list container. */
  function RenderValue(g: Graph, c: Context, h: Shape, o: Term, depth: nat): (r: J)
    requires ValueOk(g, c, h, o, depth)
    ensures !h.unwrapList ==> r == ModeValue(g, c, h.mode, o, depth)
    ensures h.unwrapList ==> r == ModeValue(g, c, h.mode, o, depth).obj[c.listKey]
  {
    var v := ModeValue(g, c, h.mode, o, depth);
    if h.unwrapList then v.obj[c.listKey] else v
  }

  /** Every object `_key_and_node` renders can be rendered: all of them for an array, else the first. */
  predicate PropertyOk(rd: Reading, g: Graph, c: Context, p: string, objs: seq<Term>, depth: nat)
    requires |objs| > 0
  {
    var h := Handles(rd, c, p, objs);
    if h.many then forall o :: o in objs ==> ValueOk(g, c, h, o, depth)
    else ValueOk(g, c, h, objs[0], depth)
  }

  /** The rendered objects, one per object, in order (line 178). */
  function RenderAll(g: Graph, c: Context, h: Shape, objs: seq<Term>, depth: nat): (r: seq<J>)
    requires forall o :: o in objs ==> ValueOk(g, c, h, o, depth)
    ensures |r| == |objs|
    ensures forall i :: 0 <= i < |objs| ==> r[i] == RenderValue(g, c, h, objs[i], depth)
  {
    if |objs| == 0 then []
    else
      assert objs[0] in objs;
      [RenderValue(g, c, h, objs[0], depth)] + RenderAll(g, c, h, objs[1..], depth)
  }

  /**
   * `_key_and_node`: the property's key and value. An array holds one entry
   * per object, in object order; a single value renders the first object only.
   */
  function KeyAndNode(rd: Reading, g: Graph, c: Context, p: string, objs: seq<Term>, depth: nat): (kv: (string, J))
    requires |objs| > 0
    requires PropertyOk(rd, g, c, p, objs, depth)
    ensures var h := Handles(rd, c, p, objs);
      && kv.0 == h.key
      && (!h.many ==> kv.1 == RenderValue(g, c, h, objs[0], depth))
      && (h.many ==> kv.1.JArr? && |kv.1.items| == |objs|
                     && forall i :: 0 <= i < |objs| ==> kv.1.items[i] == RenderValue(g, c, h, objs[i], depth))
  {
    var h := Handles(rd, c, p, objs);
    if !h.many then (h.key, RenderValue(g, c, h, objs[0], depth))
    else (h.key, JArr(RenderAll(g, c, h, objs, depth)))
  }

  /** Without a term, `rdf:type` is keyed by the type keyword and its IRI values are bare shrunk strings. */
  lemma TypeValuesAreBare(rd: Reading, g: Graph, c: Context, objs: seq<Term>, depth: nat, i: nat)
    requires |objs| > 0 && i < |objs| && objs[i].IRI?
    requires c.findTerm(TYPE, LookupDatatype(rd, objs)).None?
    requires PropertyOk(rd, g, c, TYPE, objs, depth)
    ensures var kv := KeyAndNode(rd, g, c, TYPE, objs, depth);
      && kv.0 == c.typeKey
      && (Handles(rd, c, TYPE, objs).many ==> kv.1.items[i] == JStr(c.shrink(objs[i].iri)))
      && (!Handles(rd, c, TYPE, objs).many ==> i == 0 && kv.1 == JStr(c.shrink(objs[0].iri)))
  {
  }

  /** A term typed `@id` emits its IRI objects as bare shrunk strings. */
  lemma IdTermValuesAreBare(rd: Reading, g: Graph, c: Context, p: string, objs: seq<Term>, depth: nat, t: TermDef, i: nat)
    requires |objs| > 0 && i < |objs| && objs[i].IRI?
    requires c.findTerm(p, LookupDatatype(rd, objs)) == Some(t)
    requires t.ty == Some(ID) && t.container != List
    requires PropertyOk(rd, g, c, p, objs, depth)
    ensures var kv := KeyAndNode(rd, g, c, p, objs, depth);
      && kv.0 == t.name
      && (Handles(rd, c, p, objs).many ==> kv.1.items[i] == JStr(c.shrink(objs[i].iri)))
      && (!Handles(rd, c, p, objs).many ==> i == 0 && kv.1 == JStr(c.shrink(objs[0].iri)))
  {
  }

  /** A term whose type is the literal's datatype emits that literal's bare lexical value. */
  lemma TypedTermPassesLiteral(rd: Reading, g: Graph, c: Context, p: string, objs: seq<Term>, depth: nat, t: TermDef, i: nat)
    requires |objs| > 0 && i < |objs| && objs[i].Lit?
    requires c.findTerm(p, LookupDatatype(rd, objs)) == Some(t)
    requires NonEmpty(t.ty) && t.ty.value != ID && objs[i].dt == t.ty && t.container != List
    requires PropertyOk(rd, g, c, p, objs, depth)
    ensures var kv := KeyAndNode(rd, g, c, p, objs, depth);
      && kv.0 == t.name
      && (Handles(rd, c, p, objs).many ==> kv.1.items[i] == JStr(objs[i].lex))
      && (!Handles(rd, c, p, objs).many ==> i == 0 && kv.1 == JStr(objs[0].lex))
  {
  }

  /**
   * A list-container term emits, for a list-valued object, the list's element
   * values directly rather than the `{list_key: ...}` wrapper.
   */
  lemma ListTermUnwraps(rd: Reading, g: Graph, c: Context, p: string, objs: seq<Term>, depth: nat, t: TermDef)
    requires |objs| == 1
    requires c.findTerm(p, LookupDatatype(rd, objs)) == Some(t)
    requires !NonEmpty(t.ty) && t.container == List
    requires CollectionItems(g, objs[0]).Some? && objs[0] != NIL
    requires PropertyOk(rd, g, c, p, objs, depth)
    ensures var items := CollectionItems(g, objs[0]).value;
      && depth > 0
      && (forall e :: e in items ==> Nested(g, e, depth - 1))
      && KeyAndNode(rd, g, c, p, objs, depth) == (t.name, JArr(RawValues(g, c, items, depth - 1)))
  {
  }
}

=== FILE: rdf.dfy ===
/**
 * RDF terms, triples and the read-only queries the serializer makes of a graph.
 * A graph is a sequence of triples, so that the order of objects per predicate
 * and the choice made by `Graph.value` are defined.
 */
module Rdf {
  import opened Wrappers
  import opened Seqs

  /** An IRI, a blank node (its identifier without the `_:` prefix) or a literal. */
  datatype Term =
    | IRI(iri: string)
    | BNode(name: string)
    | Lit(lex: string, dt: Option<string>, lang: Option<string>)

  /** A statement: subject, predicate IRI, object. */
  datatype Triple = Triple(s: Term, p: string, o: Term)

  /** A graph: its triples, in an order that fixes the choices rdflib's store makes. */
  type Graph = seq<Triple>

  const FIRST := "http://www.w3.org/1999/02/22-rdf-syntax-ns#first"
  const REST := "http://www.w3.org/1999/02/22-rdf-syntax-ns#rest"
  const TYPE := "http://www.w3.org/1999/02/22-rdf-syntax-ns#type"
  const NIL := IRI("http://www.w3.org/1999/02/22-rdf-syntax-ns#nil")

  /** The N3 form of a blank node, `_:name`, as `BNode.n3()` gives it. */
  function N3(name: string): string {
    "_:" + name
  }

  /** Some triple `(s, p, _)` is in the graph. */
  predicate HasTriple(g: Graph, s: Term, p: string) {
    exists t :: t in g && t.s == s && t.p == p
  }

  /** `(s, rdf:first, None) in graph`: `s` heads an RDF list. */
  predicate HasFirst(g: Graph, s: Term) {
    HasTriple(g, s, FIRST)
  }

  /** `s` is the subject of some triple. */
  predicate IsSubject(g: Graph, s: Term) {
    exists t :: t in g && t.s == s
  }

  /**
   * Python truthiness of a typed literal with lexical form `lex` and datatype
   * `dt`: the truthiness of the Python value rdflib converts it to (an integer
   * `0` or a boolean false is false), or of its lexical form when rdflib has
   * no conversion for the datatype. rdflib's conversion table is not part of
   * this model, so this constant is deliberately left arbitrary (declared
   * without a value, like an uninterpreted function): every property proved
   * holds whatever its values are.
   */
  const TypedValueTruthy: (string, string) -> bool

  /**
   * Python truthiness of a term. IRIs and blank nodes are strings, false when
   * empty. A literal without datatype has its lexical form as value; a typed
   * literal is as `TypedValueTruthy` says.
   */
  predicate Truthy(t: Term) {
    match t
    case IRI(i) => i != ""
    case BNode(n) => n != ""
    case Lit(lex, dt, _) => if dt.None? then lex != "" else TypedValueTruthy(lex, dt.value)
  }

  /** `any(graph.objects(s, RDF.first))`: some `rdf:first` object of `s` is truthy. */
  predicate HasTruthyFirst(g: Graph, s: Term) {
    exists t :: t in g && t.s == s && t.p == FIRST && Truthy(t.o)
  }

  /** `any(graph.subjects(None, o))`: some triple with a truthy subject has `o` as object. */
  predicate IsReferenced(g: Graph, o: Term) {
    exists t :: t in g && t.o == o && Truthy(t.s)
  }

  /** Every term that occurs as an object. */
  function Objects(g: Graph): set<Term> {
    set t | t in g :: t.o
  }

  /**
   * `graph.value(s, p)`: the object of the first triple `(s, p, _)` in graph
   * order, or None when there is none.
   */
  function Value(g: Graph, s: Term, p: string): (r: Option<Term>)
    ensures r.Some? <==> HasTriple(g, s, p)
    ensures r.Some? ==> Triple(s, p, r.value) in g
  {
    if |g| == 0 then None
    else
      assert g == [g[0]] + g[1..];
      if g[0].s == s && g[0].p == p then Some(g[0].o)
      else Value(g[1..], s, p)
  }

  /** A prefix that holds a `(s, p, _)` triple decides `Value`. */
  lemma {:induction false} ValueOfPrefix(a: Graph, b: Graph, s: Term, p: string)
    requires HasTriple(a, s, p)
    ensures Value(a + b, s, p) == Value(a, s, p)
  {
    if a[0].s == s && a[0].p == p {
    } else {
      assert (a + b)[1..] == a[1..] + b;
      assert HasTriple(a[1..], s, p) by {
        var t :| t in a && t.s == s && t.p == p;
        assert a == [a[0]] + a[1..];
      }
      ValueOfPrefix(a[1..], b, s, p);
    }
  }

  /** A prefix without any `(s, p, _)` triple is skipped by `Value`. */
  lemma {:induction false} ValueSkipsPrefix(a: Graph, b: Graph, s: Term, p: string)
    requires !HasTriple(a, s, p)
    ensures Value(a + b, s, p) == Value(b, s, p)
  {
    if |a| == 0 {
      assert a + b == b;
    } else {
      assert (a + b)[1..] == a[1..] + b;
      assert a[0] in a;
      assert !HasTriple(a[1..], s, p) by {
        forall t | t in a[1..] ensures !(t.s == s && t.p == p) {
          assert t in a;
        }
      }
      ValueSkipsPrefix(a[1..], b, s, p);
    }
  }

  /** The subject of every triple, in graph order, duplicates kept. */
  function SubjectSeq(g: Graph): (r: seq<Term>)
    ensures forall x :: x in r <==> IsSubject(g, x)
  {
    if |g| == 0 then []
    else
      assert g == [g[0]] + g[1..];
      [g[0].s] + SubjectSeq(g[1..])
  }

  /** `set(graph.subjects())`: each subject once. */
  function Subjects(g: Graph): (r: seq<Term>)
    ensures NoDup(r)
    ensures forall x :: x in r <==> IsSubject(g, x)
  {
    Dedup(SubjectSeq(g))
  }

  /** The predicates of `s`'s triples, in graph order, duplicates kept. */
  function PredicateSeq(g: Graph, s: Term): (r: seq<string>)
    ensures forall p :: p in r <==> HasTriple(g, s, p)
  {
    if |g| == 0 then []
    else
      assert g == [g[0]] + g[1..];
      (if g[0].s == s then [g[0].p] else []) + PredicateSeq(g[1..], s)
  }

  /** The distinct predicates of `s`, as the keys of `p_objs` at serializer lines 161-164. */
  function PredicatesOf(g: Graph, s: Term): (r: seq<string>)
    ensures NoDup(r)
    ensures forall p :: p in r <==> HasTriple(g, s, p)
  {
    Dedup(PredicateSeq(g, s))
  }

  /** The objects of `(s, p, _)` triples in graph order: one `p_objs[p]` list. */
  function ObjectsOf(g: Graph, s: Term, p: string): (r: seq<Term>)
    ensures forall o :: o in r <==> Triple(s, p, o) in g
    ensures |r| > 0 <==> HasTriple(g, s, p)
    ensures |r| <= |g|
    ensures NoDup(g) ==> NoDup(r)
  {
    if |g| == 0 then []
    else
      assert g == [g[0]] + g[1..];
      var rest := ObjectsOf(g[1..], s, p);
      if g[0].s == s && g[0].p == p then
        assert NoDup(g) ==> NoDup([g[0].o] + rest) by {
          if NoDup(g) {
            NoDupTail(g);
            assert g[0] == Triple(s, p, g[0].o);
            NoDupCons(g[0].o, rest);
          }
        }
        [g[0].o] + rest
      else
        assert NoDup(g) ==> NoDup(g[1..]) by {
          if NoDup(g) {
            NoDupTail(g);
          }
        }
        rest
  }
}

=== FILE: render.dfy ===
/**
 * Rendering one RDF term as its JSON-LD value: `_to_raw_value` and the list
 * wrapping it shares with `_to_collection` (rdflib_jsonld/serializer.py:225-264).
 */
module Render {
  import opened Wrappers
  import opened Rdf
  import opened Json
  import opened Ctx
  import opened Collection

  /** A language tag that differs from the context's default language (line 238). */
  predicate ForeignLanguage(c: Context, lang: Option<string>) {
    NonEmpty(lang) && Some(lang.value) != c.language
  }

  /** The lexical form a rendered literal carries: the bare string, or the string under the value key. */
  function LexicalOf(c: Context, j: J): Option<string> {
    match j
    case JStr(s) => Some(s)
    case JObj(m) => if c.valueKey in m && m[c.valueKey].JStr? then Some(m[c.valueKey].str) else None
    case JArr(_) => None
  }

  /**
   * The value of a literal: a foreign language tag wins over a datatype, a
   * datatype is always surfaced, and a plain literal is wrapped only in the
   * expanded form (no context).
   */
  function LiteralValue(c: Context, lex: string, dt: Option<string>, lang: Option<string>): (r: J)
    ensures LexicalOf(c, r) == Some(lex)
    ensures r.JStr? <==> c.present && !ForeignLanguage(c, lang) && !NonEmpty(dt)
    ensures ForeignLanguage(c, lang) ==> r.obj.Keys == {c.langKey, c.valueKey}
    ensures ForeignLanguage(c, lang) && c.langKey != c.valueKey ==> r.obj[c.langKey] == JStr(lang.value)
    ensures !ForeignLanguage(c, lang) && NonEmpty(dt) ==> r.obj.Keys == {c.typeKey, c.valueKey}
    ensures !ForeignLanguage(c, lang) && NonEmpty(dt) && c.typeKey != c.valueKey ==>
              r.obj[c.typeKey] == JStr(c.shrink(dt.value))
    ensures r.JObj? && !ForeignLanguage(c, lang) && !NonEmpty(dt) ==> r.obj.Keys == {c.valueKey}
  {
    if ForeignLanguage(c, lang) then
      JObj(map[c.langKey := JStr(lang.value), c.valueKey := JStr(lex)])
    else if NonEmpty(dt) then
      JObj(map[c.typeKey := JStr(c.shrink(dt.value)), c.valueKey := JStr(lex)])
    else if !c.present then
      JObj(map[c.valueKey := JStr(lex)])
    else
      JStr(lex)
  }

  /** The value of a term that is not a list: a node reference, or a literal's value. */
  function Reference(c: Context, o: Term): (r: J)
    ensures o.BNode? ==> r == JObj(map[c.idKey := JStr(N3(o.name))])
    ensures o.IRI? ==> r == JObj(map[c.idKey := JStr(c.shrink(o.iri))])
    ensures o.Lit? ==> LexicalOf(c, r) == Some(o.lex)
  {
    match o
    case BNode(n) => JObj(map[c.idKey := JStr(N3(n))])
    case IRI(i) => JObj(map[c.idKey := JStr(c.shrink(i))])
    case Lit(lex, dt, lang) => LiteralValue(c, lex, dt, lang)
  }

  /** `{list_key: [...]}` around rendered list elements. */
  function ListObject(c: Context, items: seq<J>): J {
    JObj(map[c.listKey := JArr(items)])
  }

  /**
   * Rendering `o` nests at most `depth` lists deep. Python's recursion limit
   * makes deeper nestings crash, and a list that reaches itself through its
   * elements exceeds every depth. Every element the walk meets is rendered,
   * even when the walk then fails.
   */
  predicate Nested(g: Graph, o: Term, depth: nat)
    decreases depth
  {
    IsListHead(g, o) ==>
      depth > 0 && forall e :: e in Walk(g, o, {o}).items ==> Nested(g, e, depth - 1)
  }

  /**
   * `_to_raw_value`: a list (or `rdf:nil`) becomes `{list_key: [elements]}`,
   * anything else a reference or literal value.
   */
  function RawValue(g: Graph, c: Context, o: Term, depth: nat): (r: J)
    requires Nested(g, o, depth)
    ensures CollectionItems(g, o).None? ==> r == Reference(c, o)
    ensures CollectionItems(g, o).Some? ==>
              r.JObj? && r.obj.Keys == {c.listKey} && r.obj[c.listKey].JArr?
              && |r.obj[c.listKey].items| == |CollectionItems(g, o).value|
    decreases depth, 0, 0
  {
    match CollectionItems(g, o)
    case Some(items) =>
      if o == NIL then ListObject(c, [])
      else ListObject(c, RawValues(g, c, items, depth - 1))
    case None => Reference(c, o)
  }

  /** The list comprehension at line 259: each element rendered, in order. */
  function RawValues(g: Graph, c: Context, os: seq<Term>, depth: nat): (r: seq<J>)
    requires forall e :: e in os ==> Nested(g, e, depth)
    ensures |r| == |os|
    ensures forall i :: 0 <= i < |os| ==> r[i] == RawValue(g, c, os[i], depth)
    decreases depth, 1, |os|
  {
    if |os| == 0 then []
    else [RawValue(g, c, os[0], depth)] + RawValues(g, c, os[1..], depth)
  }

  /** A list renders as its elements' values, in list order. */
  lemma ListElementsInOrder(g: Graph, c: Context, o: Term, depth: nat, i: nat)
    requires Nested(g, o, depth)
    requires CollectionItems(g, o).Some? && i < |CollectionItems(g, o).value|
    ensures depth > 0 && CollectionItems(g, o).value[i] in CollectionItems(g, o).value
    ensures RawValue(g, c, o, depth).obj[c.listKey].items[i]
            == RawValue(g, c, CollectionItems(g, o).value[i], depth - 1)
  {
  }

  /** The depth bound only decides whether rendering crashes, never what it yields. */
  lemma {:induction false} DepthIrrelevant(g: Graph, c: Context, o: Term, d1: nat, d2: nat)
    requires Nested(g, o, d1) && Nested(g, o, d2)
    ensures RawValue(g, c, o, d1) == RawValue(g, c, o, d2)
    decreases d1
  {
    match CollectionItems(g, o)
    case Some(items) =>
      if o != NIL {
        var r1 := RawValues(g, c, items, d1 - 1);
        var r2 := RawValues(g, c, items, d2 - 1);
        forall i | 0 <= i < |items| ensures r1[i] == r2[i] {
          assert items[i] in items;
          DepthIrrelevant(g, c, items[i], d1 - 1, d2 - 1);
        }
        assert r1 == r2;
      }
    case None =>
  }

  /** More depth never hurts: a rendering that fits within `d` fits within any larger bound. */
  lemma {:induction false} NestedMonotone(g: Graph, o: Term, d: nat, d': nat)
    requires Nested(g, o, d) && d <= d'
    ensures Nested(g, o, d')
    decreases d
  {
    if IsListHead(g, o) {
      forall e | e in Walk(g, o, {o}).items ensures Nested(g, e, d' - 1) {
        NestedMonotone(g, e, d - 1, d' - 1);
      }
    }
  }

  /**
   * A node whose rest chain revisits a node is not a list: a blank node falls
   * back to `{id_key: _:name}`, an IRI to `{id_key: shrink(iri)}`.
   */
  lemma CyclicListFallsBack(g: Graph, c: Context, o: Term, depth: nat)
    requires IsListHead(g, o) && !Walk(g, o, {o}).ok
    requires Nested(g, o, depth)
    ensures o.BNode? ==> RawValue(g, c, o, depth) == JObj(map[c.idKey := JStr(N3(o.name))])
    ensures o.IRI? ==> RawValue(g, c, o, depth) == JObj(map[c.idKey := JStr(c.shrink(o.iri))])
  {
  }

  /** `rdf:nil` renders as the empty list `{list_key: []}`. */
  lemma NilIsEmptyList(g: Graph, c: Context, depth: nat)
    requires Nested(g, NIL, depth)
    ensures RawValue(g, c, NIL, depth) == JObj(map[c.listKey := JArr([])])
  {
  }

  /**
   * A literal tagged with the context's own language renders bare under a
   * context, and a literal in another language as `{lang_key, value_key}`.
   */
  lemma DefaultLanguageIsBare(c: Context, lex: string, lang: string)
    requires c.present && lang != ""
    ensures c.language == Some(lang) ==> LiteralValue(c, lex, None, Some(lang)) == JStr(lex)
    ensures c.language != Some(lang) ==>
              LiteralValue(c, lex, None, Some(lang)) == JObj(map[c.langKey := JStr(lang), c.valueKey := JStr(lex)])
  {
  }
}

=== FILE: scenarios.dfy ===
/**
 * Worked examples: small concrete graphs and what the serializer makes of
 * them under any context with the stated properties.
 */
module Scenarios {
  import opened Wrappers
  import opened Seqs
  import opened Rdf
  import opened Json
  import opened Ctx
  import opened Collection
  import opened Render
  import opened Property
  import opened Node
  import opened Document

  const A := BNode("a")
  const B := BNode("b")
  const X := Lit("x", None, None)
  const Y := Lit("y", None, None)

  /** The list `( "x" "y" )` with head `_:a`, referenced by `(s, p, _:a)`. */
  function ListGraph(s: string, p: string): Graph {
    [Triple(IRI(s), p, A)] + ListTriples([A, B], [X, Y])
  }

  /** The list graph's head walks to `"x"`, `"y"` and is recognised as that list. */
  lemma ListGraphWalk(s: string, p: string)
    requires IRI(s) != NIL
    ensures IsListHead(ListGraph(s, p), A)
    ensures Walk(ListGraph(s, p), A, {A}) == Walked([X, Y], true)
    ensures CollectionItems(ListGraph(s, p), A) == Some([X, Y])
  {
    var pre := [Triple(IRI(s), p, A)];
    var ns := [A, B];
    assert NoDup(ns);
    WalkFromHead(ListGraph(s, p), pre, ns, [X, Y]);
    ListLinks(ns, [X, Y], 0);
    ValueSkipsPrefix(pre, ListTriples(ns, [X, Y]), A, FIRST);
    ListRoundTrip(pre, ns, [X, Y]);
  }

  /** The list's elements head no list themselves. */
  lemma ListGraphElements(s: string, p: string)
    ensures !IsListHead(ListGraph(s, p), X) && !IsListHead(ListGraph(s, p), Y)
  {
    var g := ListGraph(s, p);
    forall t | t in g ensures t.s != X && t.s != Y {
      if t in ListTriples([A, B], [X, Y]) {
        ListTriplesSubjects([A, B], [X, Y], t);
      }
    }
  }

  /** The list renders as `{list_key: ["x", "y"]}` within one level of nesting. */
  lemma ListGraphRender(s: string, p: string, c: Context)
    requires IRI(s) != NIL
    requires c.present
    ensures Nested(ListGraph(s, p), A, 1)
    ensures RawValue(ListGraph(s, p), c, A, 1) == JObj(map[c.listKey := JArr([JStr("x"), JStr("y")])])
  {
    var g := ListGraph(s, p);
    ListGraphWalk(s, p);
    ListGraphElements(s, p);
    assert Nested(g, X, 0) && Nested(g, Y, 0);
    assert Nested(g, A, 1);
    var vs := RawValues(g, c, [X, Y], 0);
    assert vs[0] == JStr("x") && vs[1] == JStr("y");
    assert vs == [JStr("x"), JStr("y")];
  }

  /**
   * Under a context, the list renders as `{list_key: ["x", "y"]}` for a
   * property without a term: one object, so a single value.
   */
  lemma ListUnderPlainProperty(rd: Reading, s: string, p: string, c: Context)
    requires c.present && p != TYPE && IRI(s) != NIL
    requires c.findTerm(p, None).None?
    ensures PropertyOk(rd, ListGraph(s, p), c, p, [A], 1)
    ensures KeyAndNode(rd, ListGraph(s, p), c, p, [A], 1)
            == (c.shrink(p), JObj(map[c.listKey := JArr([JStr("x"), JStr("y")])]))
  {
    ListGraphRender(s, p, c);
    assert LookupDatatype(rd, [A]).None?;
  }

  /** Under a list-container term, the property's value is the bare array `["x", "y"]`. */
  lemma ListUnderListTerm(rd: Reading, s: string, p: string, c: Context, name: string)
    requires c.present && IRI(s) != NIL
    requires c.findTerm(p, None) == Some(TermDef(name, None, List))
    ensures PropertyOk(rd, ListGraph(s, p), c, p, [A], 1)
    ensures KeyAndNode(rd, ListGraph(s, p), c, p, [A], 1) == (name, JArr([JStr("x"), JStr("y")]))
  {
    ListGraphRender(s, p, c);
    assert LookupDatatype(rd, [A]).None?;
  }

  /**
   * A node with `rdf:first` and no `rdf:rest` is a one-element list: the
   * walk ends at the missing rest without an error.
   */
  lemma MissingRestIsShortList()
    ensures CollectionItems([Triple(A, FIRST, X)], A) == Some([X])
  {
    var g := [Triple(A, FIRST, X)];
    assert Triple(A, FIRST, X) in g;
    assert Value(g, A, REST).None?;
  }

  /** The empty plain literal, false in Python. */
  const E := Lit("", None, None)

  /** The list `( "" )` with head `_:a`, referenced by `(s, p, _:a)`. */
  function FalsyList(s: string, p: string): Graph {
    [Triple(IRI(s), p, A)] + ListTriples([A], [E])
  }

  /** The head of `( "" )` is a list, with the false literal as its item. */
  lemma FalsyListItems(s: string, p: string)
    requires IRI(s) != NIL
    ensures CollectionItems(FalsyList(s, p), A) == Some([E])
  {
    ListRoundTrip([Triple(IRI(s), p, A)], [A], [E]);
  }

  /**
   * A list head whose only `rdf:first` object is false is still a list, yet
   * also gets its own top-level node, identified as `_:a` since a true
   * subject refers to it.
   */
  lemma FalsyElementHeadIsNode(s: string, p: string, c: Context)
    requires s != "" && IRI(s) != NIL
    ensures CollectionItems(FalsyList(s, p), A) == Some([E])
    ensures A in TopLevelSubjects(FalsyList(s, p))
    ensures IdEntry(FalsyList(s, p), c, A) == map[c.idKey := JStr("_:a")]
  {
    FalsyListItems(s, p);
    var g := FalsyList(s, p);
    assert ListTriples([A], [E]) == [Triple(A, FIRST, E), Triple(A, REST, NIL)] + ListTriples([], []) by {
      assert [A][1..] == [] && [E][1..] == [];
    }
    assert g == [Triple(IRI(s), p, A), Triple(A, FIRST, E), Triple(A, REST, NIL)];
    assert g[0] in g && g[1] in g;
    assert IsTopLevel(g, A);
    assert IsReferenced(g, A);
    assert N3("a") == "_:a";
  }

  /** A rest pointing at the empty IRI, false in Python, ends the list quietly. */
  lemma FalsyRestEndsList()
    ensures CollectionItems([Triple(A, FIRST, X), Triple(A, REST, IRI(""))], A) == Some([X])
  {
    var g := [Triple(A, FIRST, X), Triple(A, REST, IRI(""))];
    assert g[0] in g;
    assert Value(g, A, FIRST) == Some(X);
    assert Value(g, A, REST) == Some(IRI(""));
    assert Walk(g, IRI(""), {A} + {IRI("")}) == Walked([], true);
    assert Walk(g, A, {A}) == Walked([X] + [], true);
    assert [X] + [] == [X];
    assert HasFirst(g, A);
  }

  /** Two objects on a property without a term give an array of two values, with or without a context. */
  lemma TwoObjectsMakeArray(rd: Reading, g: Graph, c: Context, p: string, o1: Term, o2: Term, depth: nat)
    requires c.findTerm(p, LookupDatatype(rd, [o1, o2])).None?
    requires PropertyOk(rd, g, c, p, [o1, o2], depth)
    ensures var v := KeyAndNode(rd, g, c, p, [o1, o2], depth).1; v.JArr? && |v.items| == 2
  {
  }

  /** A one-triple graph: IRI subject `s`, property `p`, plain literal `v`. */
  function OneLiteral(s: string, p: string, v: string): Graph {
    [Triple(IRI(s), p, Lit(v, None, None))]
  }

  /** The one-triple graph has exactly one top-level subject, and one predicate on it. */
  lemma OneLiteralShape(s: string, p: string, v: string)
    ensures TopLevelSubjects(OneLiteral(s, p, v)) == [IRI(s)]
    ensures PredicatesOf(OneLiteral(s, p, v), IRI(s)) == [p]
    ensures ObjectsOf(OneLiteral(s, p, v), IRI(s), p) == [Lit(v, None, None)]
  {
    var g := OneLiteral(s, p, v);
    assert g[0] in g;
    OnlyElement(TopLevelSubjects(g), IRI(s));
    assert HasTriple(g, IRI(s), p);
    OnlyElement(PredicatesOf(g, IRI(s)), p);
    OnlyElement(ObjectsOf(g, IRI(s), p), Lit(v, None, None));
  }

  /**
   * The datatype `find_term` is asked for when a property's one object is a
   * plain literal: the string "None" as written, none when corrected.
   */
  function PlainLookup(rd: Reading): Option<string> {
    if rd == AsWritten then Some("None") else None
  }

  /** The literal's entry is the term's name and the bare literal value. */
  lemma OneLiteralEntry(rd: Reading, s: string, p: string, v: string, c: Context, name: string)
    requires c.present
    requires c.findTerm(p, PlainLookup(rd)) == Some(TermDef(name, None, Plain))
    ensures PropertyOk(rd, OneLiteral(s, p, v), c, p, [Lit(v, None, None)], 0)
    ensures KeyAndNode(rd, OneLiteral(s, p, v), c, p, [Lit(v, None, None)], 0) == (name, JStr(v))
  {
    var lit := Lit(v, None, None);
    assert LookupDatatype(rd, [lit]) == PlainLookup(rd);
    assert PropertyOk(rd, OneLiteral(s, p, v), c, p, [lit], 0);
  }

  /** The subject's node holds its identifier and the term's bare literal. */
  lemma OneLiteralNode(rd: Reading, s: string, p: string, v: string, c: Context, name: string)
    requires c.present
    requires c.findTerm(p, PlainLookup(rd)) == Some(TermDef(name, None, Plain))
    requires name != c.idKey
    ensures NodeOk(rd, OneLiteral(s, p, v), c, IRI(s), 0)
    ensures SubjectToNode(rd, OneLiteral(s, p, v), c, IRI(s), 0)
            == map[c.idKey := JStr(c.shrink(s)), name := JStr(v)]
  {
    var g := OneLiteral(s, p, v);
    var lit := Lit(v, None, None);
    OneLiteralShape(s, p, v);
    OneLiteralEntry(rd, s, p, v, c, name);
    assert NodeOk(rd, g, c, IRI(s), 0);
    var kv := KeyAndNode(rd, g, c, p, [lit], 0);
    var kvs := NodeEntries(rd, g, c, IRI(s), 0);
    assert kvs == [kv];
    assert LastWithKey(kvs, 0);
    assert KeysOf(kvs) == {name};
    var node := SubjectToNode(rd, g, c, IRI(s), 0);
    assert node.Keys == {c.idKey, name};
  }

  /** The one-triple store is well formed and serializes without an exception. */
  lemma OneLiteralStoreOk(rd: Reading, s: string, p: string, v: string, c: Context, name: string, gid: string)
    requires c.present
    requires c.findTerm(p, PlainLookup(rd)) == Some(TermDef(name, None, Plain))
    requires name != c.idKey
    ensures DocumentOk(rd, Single(NamedGraph(BNode(gid), OneLiteral(s, p, v))), c, 0)
  {
    var g := OneLiteral(s, p, v);
    OneLiteralShape(s, p, v);
    OneLiteralNode(rd, s, p, v, c, name);
    assert GraphOk(rd, g, c, 0);
    assert Partition(Single(NamedGraph(BNode(gid), g))) == [Part(None, g)];
  }

  /**
   * One subject with one plain literal, under a context whose term lookup for
   * `p` (with the datatype asked for under either reading) is a plain term, serializes
   * as a single object: the subject's identifier and the term's key holding
   * the bare literal.
   */
  lemma OneLiteralDocument(rd: Reading, s: string, p: string, v: string, c: Context, name: string, gid: string)
    requires c.present
    requires c.findTerm(p, PlainLookup(rd)) == Some(TermDef(name, None, Plain))
    requires name != c.idKey
    ensures DocumentOk(rd, Single(NamedGraph(BNode(gid), OneLiteral(s, p, v))), c, 0)
    ensures FromRdf(rd, Single(NamedGraph(BNode(gid), OneLiteral(s, p, v))), c, None, 0)
            == JObj(map[c.idKey := JStr(c.shrink(s)), name := JStr(v)])
  {
    var g := OneLiteral(s, p, v);
    OneLiteralShape(s, p, v);
    OneLiteralNode(rd, s, p, v, c, name);
    OneLiteralStoreOk(rd, s, p, v, c, name, gid);
    SingleNodeDocument(rd, BNode(gid), g, c, None, 0);
    var node := FromGraph(rd, g, c, 0)[0];
    assert BaseObject(c, None, None) + node == node;
    assert c.idKey in node;
  }

  /** A one-triple graph: IRI subject `s`, property `p`, literal `v` tagged `@en`. */
  function EnglishLiteral(s: string, p: string, v: string): Graph {
    [Triple(IRI(s), p, Lit(v, None, Some("en")))]
  }

  /** The tagged-literal graph has one top-level subject, one predicate on it and one object. */
  lemma EnglishLiteralShape(s: string, p: string, v: string)
    ensures TopLevelSubjects(EnglishLiteral(s, p, v)) == [IRI(s)]
    ensures PredicatesOf(EnglishLiteral(s, p, v), IRI(s)) == [p]
    ensures ObjectsOf(EnglishLiteral(s, p, v), IRI(s), p) == [Lit(v, None, Some("en"))]
  {
    var g := EnglishLiteral(s, p, v);
    assert g[0] in g;
    OnlyElement(TopLevelSubjects(g), IRI(s));
    assert HasTriple(g, IRI(s), p);
    OnlyElement(PredicatesOf(g, IRI(s)), p);
    OnlyElement(ObjectsOf(g, IRI(s), p), Lit(v, None, Some("en")));
  }

  /** The value of the tagged literal in the expanded form: `{lang_key: "en", value_key: v}`. */
  function EnglishValue(c: Context, v: string): J {
    JObj(map[c.langKey := JStr("en"), c.valueKey := JStr(v)])
  }

  /** In the expanded form, the untermed property's entry is its compact IRI and a one-entry array of the tagged value. */
  lemma EnglishLiteralEntry(rd: Reading, s: string, p: string, v: string, c: Context)
    requires !c.present
    requires forall d :: c.findTerm(p, d).None?
    requires p != TYPE
    requires c.language != Some("en")
    ensures PropertyOk(rd, EnglishLiteral(s, p, v), c, p, [Lit(v, None, Some("en"))], 0)
    ensures KeyAndNode(rd, EnglishLiteral(s, p, v), c, p, [Lit(v, None, Some("en"))], 0)
            == (c.shrink(p), JArr([EnglishValue(c, v)]))
  {
    var g := EnglishLiteral(s, p, v);
    var lit := Lit(v, None, Some("en"));
    assert c.findTerm(p, LookupDatatype(rd, [lit])).None?;
    assert PropertyOk(rd, g, c, p, [lit], 0);
    var kv := KeyAndNode(rd, g, c, p, [lit], 0);
    assert kv.1.items[0] == EnglishValue(c, v);
    assert kv.1.items == [EnglishValue(c, v)];
  }

  /** In the expanded form, the subject's node holds its identifier and a one-entry array of the tagged value. */
  lemma EnglishLiteralNode(rd: Reading, s: string, p: string, v: string, c: Context)
    requires !c.present
    requires forall d :: c.findTerm(p, d).None?
    requires p != TYPE && c.shrink(p) != c.idKey
    requires c.language != Some("en")
    ensures NodeOk(rd, EnglishLiteral(s, p, v), c, IRI(s), 0)
    ensures SubjectToNode(rd, EnglishLiteral(s, p, v), c, IRI(s), 0)
            == map[c.idKey := JStr(c.shrink(s)), c.shrink(p) := JArr([EnglishValue(c, v)])]
  {
    var g := EnglishLiteral(s, p, v);
    var lit := Lit(v, None, Some("en"));
    EnglishLiteralShape(s, p, v);
    EnglishLiteralEntry(rd, s, p, v, c);
    assert NodeOk(rd, g, c, IRI(s), 0);
    var kv := KeyAndNode(rd, g, c, p, [lit], 0);
    var kvs := NodeEntries(rd, g, c, IRI(s), 0);
    assert kvs == [kv];
    assert LastWithKey(kvs, 0);
    assert KeysOf(kvs) == {c.shrink(p)};
    var node := SubjectToNode(rd, g, c, IRI(s), 0);
    assert node.Keys == {c.idKey, c.shrink(p)};
  }

  /** The tagged-literal store is well formed and serializes without an exception. */
  lemma EnglishLiteralStoreOk(rd: Reading, s: string, p: string, v: string, c: Context, gid: string)
    requires !c.present
    requires forall d :: c.findTerm(p, d).None?
    requires p != TYPE && c.shrink(p) != c.idKey
    requires c.language != Some("en")
    ensures DocumentOk(rd, Single(NamedGraph(BNode(gid), EnglishLiteral(s, p, v))), c, 0)
  {
    var g := EnglishLiteral(s, p, v);
    EnglishLiteralShape(s, p, v);
    EnglishLiteralNode(rd, s, p, v, c);
    assert GraphOk(rd, g, c, 0);
    assert Partition(Single(NamedGraph(BNode(gid), g))) == [Part(None, g)];
  }

  /**
   * The example of the serializer's own documentation: in the expanded form,
   * one IRI subject with one literal tagged `@en` serializes as
   * `{id_key: s, p: [{lang_key: "en", value_key: v}]}`.
   */
  lemma EnglishLiteralDocument(rd: Reading, s: string, p: string, v: string, c: Context, gid: string)
    requires !c.present
    requires forall d :: c.findTerm(p, d).None?
    requires p != TYPE && c.shrink(p) != c.idKey
    requires c.langKey != c.valueKey && c.language != Some("en")
    ensures DocumentOk(rd, Single(NamedGraph(BNode(gid), EnglishLiteral(s, p, v))), c, 0)
    ensures FromRdf(rd, Single(NamedGraph(BNode(gid), EnglishLiteral(s, p, v))), c, None, 0)
            == JObj(map[c.idKey := JStr(c.shrink(s)), c.shrink(p) := JArr([EnglishValue(c, v)])])
  {
    var g := EnglishLiteral(s, p, v);
    EnglishLiteralShape(s, p, v);
    EnglishLiteralNode(rd, s, p, v, c);
    EnglishLiteralStoreOk(rd, s, p, v, c, gid);
    var node := map[c.idKey := JStr(c.shrink(s)), c.shrink(p) := JArr([EnglishValue(c, v)])];
    TwoKeyNodeDocument(rd, BNode(gid), g, c, node, c.idKey, c.shrink(p));
  }

  /**
   * A plain store whose unnamed graph has one top-level node with at least
   * two keys serializes as that node's object, whatever the context.
   */
  lemma TwoKeyNodeDocument(rd: Reading, id: Term, g: Graph, c: Context, node: map<string, J>, k1: string, k2: string)
    requires !id.IRI? && |TopLevelSubjects(g)| == 1
    requires DocumentOk(rd, Single(NamedGraph(id, g)), c, 0)
    requires GraphOk(rd, g, c, 0) && FromGraph(rd, g, c, 0)[0] == node
    requires k1 != k2 && k1 in node && k2 in node
    ensures FromRdf(rd, Single(NamedGraph(id, g)), c, None, 0) == JObj(node)
  {
    assert BaseObject(c, None, None) + node == node;
    assert node.Keys != {c.graphKey} by {
      assert k1 in node.Keys && k2 in node.Keys;
    }
    SingleNodeDocument(rd, id, g, c, None, 0);
  }
}

=== FILE: seqs.dfy ===
/** Small facts about sequences used as ordered sets. */
module Seqs {

  /** No element occurs twice. */
  predicate NoDup<T(==)>(s: seq<T>) {
    forall i, j :: 0 <= i < j < |s| ==> s[i] != s[j]
  }

  /** The elements of `s`, as a set. */
  function Elems<T(!new)>(s: seq<T>): set<T> {
    set x | x in s
  }

  /** The distinct elements of `s`, each at the place of its first occurrence. */
  function Dedup<T(==,!new)>(s: seq<T>): (r: seq<T>)
    ensures NoDup(r)
    ensures forall x :: x in r <==> x in s
  {
    if |s| == 0 then []
    else
      var d := Dedup(s[..|s| - 1]);
      assert s == s[..|s| - 1] + [s[|s| - 1]];
      if s[|s| - 1] in d then d else d + [s[|s| - 1]]
  }

  /** A non-empty sequence contains its head. */
  lemma HeadIn<T>(s: seq<T>)
    ensures |s| > 0 ==> s[0] in s
  {
  }

  /** The tail of a duplicate-free sequence is duplicate-free and lacks the head. */
  lemma NoDupTail<T>(s: seq<T>)
    requires |s| > 0 && NoDup(s)
    ensures NoDup(s[1..]) && s[0] !in s[1..]
  {
    forall i | 0 <= i < |s[1..]| ensures s[1..][i] != s[0] {
      assert s[1..][i] == s[i + 1];
    }
    forall i, j | 0 <= i < j < |s[1..]| ensures s[1..][i] != s[1..][j] {
      assert s[1..][i] == s[i + 1] && s[1..][j] == s[j + 1];
    }
  }

  /** Prepending a new element keeps a sequence duplicate-free. */
  lemma NoDupCons<T>(x: T, s: seq<T>)
    requires NoDup(s) && x !in s
    ensures NoDup([x] + s)
  {
    var r := [x] + s;
    forall i, j | 0 <= i < j < |r| ensures r[i] != r[j] {
      assert r[j] == s[j - 1];
      if i > 0 {
        assert r[i] == s[i - 1];
      }
    }
  }

  /** A duplicate-free sequence whose only element is `x` is `[x]`. */
  lemma OnlyElement<T>(r: seq<T>, x: T)
    requires NoDup(r) && x in r
    requires forall y :: y in r ==> y == x
    ensures r == [x]
  {
    assert r[0] in r;
    var tail := r[1..];
    assert r == [r[0]] + tail;
    assert x !in tail by {
      forall k | 0 <= k < |tail| ensures tail[k] != r[0] {
        assert tail[k] == r[k + 1];
      }
    }
    assert forall y :: y in tail ==> y in r;
    HeadIn(tail);
  }
}

=== FILE: wrappers.dfy ===
/** Optional values, standing in for Python's `None`. */
module Wrappers {

  datatype Option<+T> = None | Some(value: T)
}
